=== FILE: README.md ===
# newbiz-sim economic engine, in Dafny

A model of the economic engine of newbiz-sim, a multiplayer business
simulation. Sessions claim companies and act for them. The shared game then
advances year by year. The model covers the following parts of `app.py`:

- **The order book** (`market.dfy`, module `Market`). Posting a sell
  listing, and matching a buy request against the book of one material.
  Matching is cheapest first; at equal prices the oldest listing goes
  first, because Python's sort is stable. A request takes
  `min(remaining, quantity)` from every listing within the ceiling until
  nothing remains, and every listing it empties is removed. Settling the
  fills pays each seller and charges the buyer.
- **The economic rules** (`rules.dfy`, module `Rules`). These are pure
  functions:
  - the affordability clip shared by extraction and production;
  - raw consumption;
  - the customer value and the quantity a consumer market takes;
  - depreciation and the book value of assets;
  - loan service, tax and the warehousing fee;
  - the business-cycle classification of a country.
- **A company** (`company.dfy`, module `Companies`). `Company` is a class
  whose fields the methods update in place, as the source mutates its
  company dictionaries. Its methods are buying a miner or a production
  line, extraction, production, selling to a consumer market, taking a
  loan, valuation, the year-end settlement and the trial-year reset.
- **The game** (`game.dfy`, module `Simulation`). `Game` is a class holding
  the `GAME` aggregate. It covers:
  - starting a game;
  - posting and matching listings;
  - the `buy_market` settlement;
  - claiming and releasing companies;
  - the owner gate of player actions and their dispatch;
  - advancing a year: the year count, the trial flag, the government phase
    and its history entry, the automated turns of unclaimed companies, the
    year-end settlement, the trial-year cleanup and the business cycles.

Python floats are exact `real`s. Every place where the source applies `int()`
to a float is written as `Trunc`, which truncates toward zero. `int(a / b)` on
integers is `TruncDiv`.

Company `k` (counting from 0) is identified by `k + 1`, and so is country
`k`. The source names them `公司{k+1}` and `国{k+1}`. The four materials are an
enumeration.

Random draws, generated identifiers and timestamps are parameters:
- `GovDraw`: the roll, the subsidy, the chosen country and the government
  order;
- `AutoDraw`: per company, the price estimates, the market index and the
  mark-up;
- the market preferences and product materials of `Start`;
- the listing and loan identifiers and the timestamp carried by an
  `Action`.

Where the code departs from the behaviour the game is meant to have, the
model follows the code:

- `post_listing` validates nothing (app.py:128-131). The model appends any
  quantity and price, including zero and negative ones.
- Extraction and production can make cash and stock go the wrong way when
  cash is already negative (app.py:177-179, 191-193). This can happen
  because buying assets never checks the cash. `int(cash / unit_cost)` is
  then negative, so the company is *credited*. In extraction, the mined
  raw stock drops and can go below zero. In production, the negative
  count is subtracted from both product materials, so both raw stocks
  *rise*, and the product stock drops (app.py:195-199). Extraction and
  production are meant never to drive cash negative and never to lose
  stock. `Rules.OverdrawnClip` exhibits the clip in this case. The
  non-negativity clauses of `MineRaw` and `ProduceProducts` hold only when
  the cash starts non-negative.
- Posting a listing and then matching its quantity with a ceiling at or
  above its price is meant to consume that listing and remove it from the
  book. In general the code does so only when no listing with a positive
  quantity at or below that price is on the book (app.py:135-147). The
  match walks the book cheapest first, and at equal prices oldest first.
  Cheaper or older listings at that price therefore absorb the request
  first. A listing of quantity 0 is passed through with a zero fill and
  removed. A listing of negative quantity enlarges what remains of the
  request. `Market.PostThenMatch` proves the round trip in the case where
  every other listing on the book is dearer.
- A claim is refused only when the owner is set and non-empty
  (app.py:348). There is no overriding of an idle claim.
- Starting a game merges the configuration patch into the current
  configuration. It also leaves the trial flag as it was (app.py:66-70).
  Nothing else of the aggregate survives.
- A new company stores `total_assets` equal to the starting capital. Its
  cash is already lower by the seeded miner and line (app.py:104-108).

## Model

| member | source | states |
|---|---|---|
| Basics.Trunc | app.py:211 | `int()` of a float truncates toward zero: the result is within 1 of the argument, on the side toward 0 |
| Basics.TruncDiv | app.py:178 | `int(a / b)` for b > 0: the quotient truncated toward zero, bracketed by multiples of b |
| Basics.ZeroStock | app.py:93 | an entry of 0 for each of the four materials and no other key |
| Rules.Affordable | app.py:174-179 | all wanted units when affordable; otherwise the largest affordable count below the wanted one, with non-negative inputs |
| Rules.OverdrawnClip | app.py:177-179 | with cash -1000, asking for one unit realises -2 units at 500 each and -1 at 1000 each |
| Rules.CanByRaw | app.py:188 | the smaller stock of the two product materials, and at most the stock of each |
| Rules.Consumed | app.py:194-197 | keys kept; the product materials never below 0; other materials untouched |
| Rules.ConsumedExactly | app.py:188-197 | a batch within the raw stock takes exactly n of each product material, with no clamping |
| Rules.MaterialBonus | app.py:205 | 1.2 exactly when the market prefers one of the product materials, 1.0 otherwise |
| Rules.CustomerValue | app.py:206 | the price a customer accepts is never negative |
| Rules.CustomerValueGrowsWithBrand | app.py:206 | a stronger brand never lowers the customer value |
| Rules.SoldQty | app.py:207-211 | between 0 and the stock; the whole stock exactly when the price is within the customer value; otherwise the largest count whose revenue stays within stock × customer value (one more would exceed it) |
| Rules.TruncatedShare | app.py:210-211 | the truncated share of the stock at a price above the customer value is below the stock, and is the largest count whose revenue the stock's worth covers |
| Rules.Depreciated | app.py:164 | an asset's book value lies between a fifth of its cost and its cost |
| Rules.BookValueBounds | app.py:161-165 | a list of assets is valued between a fifth of its total cost and that cost |
| Rules.AgeingDepreciates | app.py:233-234 | ageing every asset by a year never raises the book value |
| Rules.Aged | app.py:233-234 | ageing keeps the number of assets |
| Rules.AssetValueOfCashOnly | app.py:302-309 | a company holding only cash is valued at its cash |
| Rules.RenewedAreRunning | app.py:220-226 | every loan that survives a year-end has at least a year left, and none is added |
| Rules.RepaymentsFloor | app.py:220-224 | once any loan is repaid the cash is ≥ 0; with no loan due the cash is untouched; repayments never add cash |
| Rules.LoanRunsItsTerm | app.py:220-226 | a loan with n years left runs for n - k more years after k year-ends and is repaid and gone after the n-th |
| Rules.Tax | app.py:227-228 | a fifth, rounded down, of the cash above the starting capital; 0 when there is none |
| Rules.WareRate | app.py:230 | 50, 100 or 150 per product |
| Rules.WarehouseFee | app.py:230-231 | between 50 and 150 per product held |
| Rules.ClassifyBands | app.py:319-326 | the cycle and its multiplier are monotone in the average; normal exactly for averages from 0.8 to 1.1 times the capital |
| Rules.EmptyCountryIsNormal | app.py:318 | a country without companies averages the capital, which is normal |
| Market.Insert | app.py:135 | one step of a stable sort by price: the new position is added and price order is kept |
| Market.PriceOrder | app.py:135 | `sorted(..., key=price)`: every position once, cheapest first, the earlier posted first at equal prices |
| Market.MatchTakes | app.py:139-147 | every take names a listing of the book |
| Market.WalkTakes | app.py:139-145 | each take comes from a listing within the ceiling, takes no more than it holds, and takes something from a listing holding a positive quantity |
| Market.WalkInOrder | app.py:135-143 | the takes follow the matching order strictly, so no listing is taken from twice |
| Market.WalkWithinRequest | app.py:137-145 | a request for rem ≥ 0 units receives at most rem |
| Market.WalkGreedy | app.py:139-145 | when listings hold positive quantities and the request was not filled, every listing within the ceiling was taken whole |
| Market.SurvivorsMembers | app.py:148-149 | the removal keeps exactly the listings not emptied |
| Market.MatchWithinCeiling | app.py:141 | every fill is within the ceiling; a dearer listing is neither taken from nor removed |
| Market.MatchWithinRequest | app.py:137-145 | the fills never total more than the request |
| Market.MatchInPriceOrder | app.py:135-143 | fills come in non-decreasing price order; at one price, in posting order |
| Market.MatchListingAccounting | app.py:142-147 | each listing drops by exactly what was taken from it, never below 0; an untouched listing is unchanged and stays; a touched positive listing is removed exactly when it reaches 0 |
| Market.MatchGreedy | app.py:139-147 | when the buyer got less than it asked for, every listing within the ceiling was emptied and removed |
| Market.MatchKeepsTheRest | app.py:148-149 | the book afterwards holds exactly the listings not emptied, with their reduced quantities |
| Market.MatchKeepsSellers | app.py:143 | every fill and every remaining listing comes from a seller of the book |
| Market.PostThenMatch | app.py:128-150 | a listing cheaper than the whole book, matched for exactly its quantity, is filled whole and removed, leaving the book as before |
| Market.MatchExample | app.py:133-150 | on a book of 10 at 100 and then 5 at 90, a request for 12 at up to 100 fills 5 at 90 then 7 at 100, leaving 3 at 100 |
| Market.ExampleTakes | app.py:135-145 | the takes of that example: 5 from the listing at 90, then 7 from the one at 100 |
| Market.VisitListing | app.py:140-147 | one iteration of the loop: the take, the fill and the removal mark, exactly the take `MatchTakes` prescribes for that position |
| Market.WalkOrder | app.py:139-147 | the loop over the sorted book computes the takes of `MatchTakes`, their fills, the reduced book and the emptied positions |
| Market.MatchWalk | app.py:133-147 | the fills, the reduced book and the emptied listings of the request |
| Market.Compact | app.py:148-149 | removes the emptied listings and keeps the order of the rest |
| Market.Settled | app.py:408-415 | the cash of every company after settling the fills |
| Market.SettlementConservesCash | app.py:408-415 | settling a trade between companies of the game conserves their total cash |
| Market.SelfTradeIsNeutral | app.py:408-415 | a buyer that buys only its own listings ends where it started |
| Market.IncomeOfOneSeller | app.py:408-412 | fills from one seller pay that seller their total price and nobody else anything |
| Market.SettledPointwise | app.py:408-415 | cash changed company by company as the fills prescribe is the settled table |
| Companies.SettledCash | app.py:220-232 | the cash after a year-end settlement is never negative |
| Companies.Company.constructor | app.py:87-105 | a fresh unclaimed company holding only its starting capital, at base value 2500 and the low tier |
| Companies.Company.ComputeAssetValue | app.py:158-168 | stores and returns cash + depreciated miners and lines + inventory at cost |
| Companies.Company.BuyMiner | app.py:115-119 | the miner is appended and its cost charged, affordable or not |
| Companies.Company.BuyProductionLine | app.py:121-125 | the line is appended and its cost charged, affordable or not |
| Companies.Company.MineRaw | app.py:170-182 | no miner: nothing changes; otherwise the clipped quantity is charged at 500 and stocked; with non-negative cash and request, the cash stays ≥ 0 and the stock rises by at most the request |
| Companies.Company.ConsumeRaws | app.py:194-197 | each product material drops by n, floored at 0; nothing else changes |
| Companies.Company.ProduceProducts | app.py:184-200 | no line: nothing changes; otherwise the clip of request, capacity, raw stock and cash is produced, charged at 1000 and consumes its raws; from non-negative cash and request the cash stays non-negative, and with non-negative raw stocks it does not grow and the product stock does not shrink |
| Companies.Company.SellToMarket | app.py:202-216 | no stock: nothing happens; otherwise the market's take is removed from stock, paid at the price, and adds 0.001 per unit to the brand |
| Companies.Company.TakeLoan | app.py:421-425 | the loan is appended with its whole term left and the amount paid out |
| Companies.Company.ReceiveRaw | app.py:413-414 | the buyer pays the total and receives the total quantity of the material |
| Companies.Company.ServiceLoans | app.py:220-226 | due loans repaid in list order with the cash clamped at 0 and removed; the others a year shorter |
| Companies.Company.AgeAssets | app.py:233-234 | every miner and line a year older |
| Companies.Company.YearEndSettle | app.py:218-236 | loans serviced, tax and warehousing fee paid with the cash floored at 0, assets aged, valuation stored; reports the tax, fee and valuation |
| Companies.Company.SoftReset | app.py:302-309 | back to the starting capital and nothing else, valued at the capital |
| Simulation.Patched | app.py:66-68 | the entries present in the patch replace the configuration's, the others stay |
| Simulation.GovEvents | app.py:246-262 | a subsidy exactly for rolls below 0.15, nothing exactly for rolls from 0.28, at most one event |
| Simulation.AfterClaim | app.py:348-352 | a claim refused by another holder changes nothing; otherwise the claimant becomes the owner |
| Simulation.AfterRelease | app.py:361-363 | the owner's release clears the owner; anyone else's changes nothing |
| Simulation.ClaimIdempotent | app.py:348-352 | claiming twice is claiming once, and the owner may always claim again |
| Simulation.ClaimExcludesOthers | app.py:348-352 | after a successful claim every other session is refused and may not act |
| Simulation.ReleaseFrees | app.py:361-363 | after the owner's release anyone may claim and nobody may act; a release by a non-owner changes nothing |
| Simulation.EmptyBooks | app.py:112 | an empty book for every material |
| Simulation.SubsidyShare | app.py:249-257 | a company receives subsidy money only in a subsidy year and only in the chosen country |
| Simulation.Reclassified | app.py:316-327 | the country keeps its name and resource; cycle and multiplier follow the average valuation |
| Simulation.AssetsIn | app.py:313-317 | the valuations grouped under a country are exactly those of its companies |
| Simulation.CountryWithoutCompaniesIsNormal | app.py:317-318 | a country none of whose companies exists gets no valuations and is classified normal |
| Simulation.Game.constructor | app.py:38-55 | the game before it starts: default configuration, no companies, empty books |
| Simulation.Game.Start | app.py:65-113 | patched configuration, year 0, fresh markets, countries and seeded companies, empty books and history, trial flag untouched |
| Simulation.Game.OpenMarkets | app.py:71-75 | the four fixed consumer markets with the drawn preferences |
| Simulation.Game.FoundCountries | app.py:78-81 | country i + 1 is rich in material i mod 4 and starts normal with multiplier 1 |
| Simulation.Game.FoundCompanies | app.py:84-109 | company k in country k mod n + 1, its capital less one miner and one line, unclaimed, valued at the capital |
| Simulation.Game.PostListing | app.py:128-131 | the order is appended to the book of its material, unvalidated |
| Simulation.Game.MatchBuy | app.py:133-150 | the fills returned are those of `MatchFills` (cheapest first, ties oldest first, within the ceiling) and the book becomes `AfterMatch`: every listing reduced by its take, the emptied ones removed |
| Simulation.Game.PaySellers | app.py:408-412 | each company receives exactly its income from the fills; the totals are returned |
| Simulation.Game.DebitBuyer | app.py:413-414 | the buyer pays and is stocked; no other company changes |
| Simulation.Game.SettleFills | app.py:407-415 | every company's cash changes by its income, less the total for the buyer; only the buyer's stock changes |
| Simulation.Game.BuyMarket | app.py:404-415 | `Bought`: the fills are the match's, each seller gains its income and the buyer pays their total, the buyer restocks the quantity got, the book keeps what the match left, and no other field of any company changes, the posted-order lists included (a copy here; see Left out) |
| Simulation.Game.PurchaseConservesCash | app.py:406-413 | a purchase from a consistent game leaves the companies' total cash unchanged: the sellers gain exactly what the buyer pays |
| Simulation.Game.PostOrder | app.py:399-403 | `PostedOrder`: the order goes at the end of its material's book and of the company's own list, and no other field of any company changes |
| Simulation.Game.Claim | app.py:341-353 | unknown company: refused; held by another session: refused, naming the holder; otherwise claimed under the player name or the session; other companies untouched |
| Simulation.Game.Release | app.py:358-363 | only the owner's release clears the owner and player name; other companies untouched |
| Simulation.Game.PlayerAction | app.py:373-380 | a missing or non-owned company is refused (both directions) and nothing changes; otherwise `Performed` holds for the owner's company |
| Simulation.Game.Perform | app.py:382-427 | `Performed`: each action yields its own kind of result and no other (both directions); a purchase action is `Bought`, a listing action is `PostedOrder`, a loan action appends the loan, credits its amount and changes no other field of the company (`KeptButLoan`); an unknown action reports itself and changes nothing; any other action leaves the book and the other companies unchanged |
| Simulation.Game.PerformOwn | app.py:384-425 | `Performed` for the miner, line, extraction, production, sale and loan actions: each yields its own kind of result, the loan is appended and credited and no other field of the company changes, and the book and the other companies are unchanged |
| Simulation.Game.GovernmentPhase | app.py:246-262 | the drawn event is returned; every company of the chosen country receives a third of the subsidy, rounded down |
| Simulation.Game.AutoRestock | app.py:272-287 | the automated purchases leave every other company's stock alone |
| Simulation.Game.AutoProduceSell | app.py:288-294 | the automated production and sale keep the game consistent |
| Simulation.Game.RunAutomation | app.py:266-294 | a claimed company's stock, products and brand are untouched by the automated turns |
| Simulation.Game.SettleAll | app.py:295-297 | every company is settled from the state it had when the settlement began, and nothing but its cash, loans, assets and stored valuation changes |
| Simulation.Game.TrialCleanup | app.py:299-309 | in the trial year every company restarts with the capital and nothing else; otherwise nothing changes |
| Simulation.Game.GroupByCountry | app.py:313-315 | the valuations grouped by country, in company order |
| Simulation.Game.ReclassifyAll | app.py:316-327 | every country reclassified from its grouped valuations |
| Simulation.Game.UpdateCycles | app.py:311-327 | from year 2 every country is reclassified; before that nothing changes |
| Simulation.Game.OpenYear | app.py:240-264 | the year count rises by one, the trial flag is set and exactly one history entry is appended |
| Simulation.Game.PlayYear | app.py:240-294 | the start of the year, then the automated turns |
| Simulation.Game.SettleYear | app.py:295-309 | outside the trial year every company is settled from the state it started in (`AllSettled`), and its stocks, R&D spend, brand, orders and owner stay as they were; in the trial year every company restarts |
| Simulation.Game.CloseYear | app.py:295-327 | outside the trial year every company is settled from its state at the start of the close, hence ends with non-negative cash, and its stocks, R&D spend, brand, orders and owner stay as they were; in the trial year every company restarts; from year 2 every country is reclassified by its companies' average valuation |
| Simulation.Game.AdvanceYear | app.py:239-327 | year + 1; trial flag; exactly one history entry recording the drawn event; a trial-year restart of every company; the cycles from year 2 |

## Left out

- Simulation.Game.AutoRestock: does not restate what each purchase does. Each one is a `BuyMarket` call, whose contract states the match and the settlement. The method states only that other companies' stock is untouched.
- Simulation.Game.AutoProduceSell: states only that the game stays consistent. The production and the sale are `ProduceProducts` and `SellToMarket`, whose contracts state them.
- Simulation.Game.RunAutomation: states what happens to claimed companies. It does not restate the unclaimed companies' turns.
- Simulation.Game.AdvanceYear: does not restate the settlement of each company, the subsidy payments or the automated turns. Those are stated by `SettleAll`, `GovernmentPhase` and `RunAutomation`, which it runs in order.
- Simulation.Game.OpenYear: does not restate the subsidy payments, which `GovernmentPhase` states.
- Simulation.Game.PlayYear: states the year, trial flag and history like `OpenYear`. It does not restate the automated turns.
- Companies.Company.MineRaw: states non-negative cash and bounded stock only for non-negative cash and request, because the source does not keep them otherwise.
- Companies.Company.ProduceProducts: states non-negative cash only for non-negative cash and request, and growing products only when the raw stocks are non-negative too, because the source does not keep them otherwise.
- Simulation.Game.BuyMarket: does not lower the sellers' posted orders. `systemOrders` keeps a copy of each order as it was posted. In the source the entry is the book's own listing dictionary (app.py:130, 402), so a match lowers its quantity too (app.py:144), and an emptied listing stays in the list at quantity 0 or below after it leaves the book. The model does not capture this aliasing, and `Bought` states every company's `systemOrders` unchanged.
- Simulation.Game.PerformOwn: the miner, line, extraction, production and sale results are stated by the `Company` methods it calls. `Performed` states for them only that the book and the other companies are unchanged.
- Simulation.Game.PlayerAction: for the miner, line, extraction, production and sale actions it states only what `Performed` states for them: the book and the other companies are unchanged. Their effect on the acting company is stated by `BuyMiner`, `BuyProductionLine`, `MineRaw`, `ProduceProducts` and `SellToMarket`.
- The defaults `player_action` applies to missing parameters are not modelled: quantity 0, price 0, `max_price` 1000000, amount 0, term 1 and rate 0.12 (app.py:392-422). An `Action` arrives with every parameter present.
- The socket transport, the connect handler, broadcasting and `compact_game_state` are outside the engine.
- The rules document download and Flask routing are outside the engine.
- Concurrency and the global lock are not modelled. Every operation runs alone and to completion.
- `random`, `uuid` and `time` are not modelled. Their draws are parameters, and `estimate_unit_price` is a drawn estimate.
- The ranges of those draws are not checked.
- The exception path of a player action, including an unknown material in `KeyError` or a failing `int()`, is not modelled. Materials are an enumeration and action parameters arrive already typed.
- The `id` of each miner and production line is not modelled, because no other member reads it.
- A line's `can_produce_tier` is not modelled, for the same reason.
- The unused `buyer_id` of `match_buy` is not modelled.
- The removal of emptied listings is by position. The source's `list.remove` removes the first equal dictionary, which is the same listing object.
- The crash of `init_game` when it has companies but no countries is excluded by `Start`'s precondition. So is `advance_year`'s crash when a subsidy year has no countries, by the preconditions of the year methods.
- The `government` entry and its tax rate are the constant 0.2, since nothing changes them.

=== FILE: basics.dfy ===
/** Shared vocabulary of the business simulation: the four raw materials,
    optional values, and the integer conversions the simulation performs
    wherever it applies Python's int() to a number. */
module Basics {

  datatype Option<T> = None | Some(value: T)

  /** The raw materials, in the order of the MATERIALS list
      (wood, metal, cloth, plastic). */
  datatype Material = Wood | Metal | Cloth | Plastic

  const Materials: seq<Material> := [Wood, Metal, Cloth, Plastic]
  const MaterialSet: set<Material> := {Wood, Metal, Cloth, Plastic}

  /** A session identifier of a connected client. */
  type SessionId = string

  /** Company k of the game (counting from 0) has identifier k + 1, as
      company names are numbered from 1. */
  type CompanyId = nat

  /** Country k of the game (counting from 0) has identifier k + 1. */
  type CountryId = nat

  function Min(a: int, b: int): int { if a <= b then a else b }
  function Max(a: int, b: int): int { if a >= b then a else b }

  /** Python's int(x) on a float: truncation toward zero (the float is
      modelled as an exact real). */
  function Trunc(x: real): (r: int)
    ensures x >= 0.0 ==> r as real <= x < r as real + 1.0
    ensures x < 0.0 ==> r as real - 1.0 < x <= r as real
  {
    if x >= 0.0 then x.Floor else -((-x).Floor)
  }

  /** Python's int(a / b) for a positive divisor: the quotient truncated
      toward zero (Dafny's own / rounds down instead). */
  function TruncDiv(a: int, b: int): (r: int)
    requires b > 0
    ensures a >= 0 ==> 0 <= r && r * b <= a < r * b + b
    ensures a < 0 ==> r <= 0 && r * b - b < a <= r * b
  {
    if a >= 0 then
      assert a == (a / b) * b + a % b && 0 <= a % b < b;
      a / b
    else
      var n := -a;
      assert n == (n / b) * b + n % b && 0 <= n % b < b;
      -(n / b)
  }

  lemma EveryMaterial(x: Material)
    ensures x in MaterialSet
  {
    match x {
      case Wood =>
      case Metal =>
      case Cloth =>
      case Plastic =>
    }
  }

  /** A stock map with an entry for every material. */
  predicate Stocked(raw: map<Material, int>)
  {
    forall m: Material :: m in raw
  }

  /** A map with an entry of 0 for every material. */
  function ZeroStock(): (m: map<Material, int>)
    ensures Stocked(m) && m.Keys == MaterialSet
    ensures forall x :: x in m ==> m[x] == 0
  {
    var r := map x | x in MaterialSet :: 0;
    assert forall x: Material :: x in r by {
      forall x: Material ensures x in r {
        EveryMaterial(x);
      }
    }
    r
  }

  /** The stock raw with q more units of m. */
  function Restocked(raw: map<Material, int>, m: Material, q: int): map<Material, int>
    requires m in raw
  {
    raw[m := raw[m] + q]
  }

  function Sum(s: seq<int>): int
  {
    if s == [] then 0 else Sum(s[..|s| - 1]) + s[|s| - 1]
  }

  function SumReal(s: seq<real>): real
  {
    if s == [] then 0.0 else SumReal(s[..|s| - 1]) + s[|s| - 1]
  }

  /** Changing one entry of a sequence by d changes its sum by d. */
  lemma {:induction false} SumUpdate(s: seq<int>, j: nat, d: int)
    requires j < |s|
    ensures Sum(s[j := s[j] + d]) == Sum(s) + d
  {
    var t := s[j := s[j] + d];
    if j == |s| - 1 {
      assert t[..|t| - 1] == s[..|s| - 1];
    } else {
      assert t[..|t| - 1] == s[..|s| - 1][j := s[j] + d];
      SumUpdate(s[..|s| - 1], j, d);
    }
  }
}

=== FILE: company.dfy ===
/** A company of the simulation and the routines that change it in place:
    buying miners and production lines, extraction, production, selling to
    a consumer market, taking a loan, valuation and the year-end
    settlement. */
module Companies {
  import opened Basics
  import opened Rules
  import opened Market

  datatype MineResult = NoMiner | Mined(qty: int, cost: int)
  datatype ProduceResult = NoProductionLine | Produced(qty: int, cost: int)

  /** What the year-end settlement reports for one company. */
  datatype Settlement = Settlement(taxPaid: int, wareFee: int, assets: real)

  /** The cash left by a year-end settlement: the due loans repaid, then
      the tax on cash above the starting capital and the warehousing fee
      paid, neither taking the cash below zero. */
  function SettledCash(cash: int, loans: seq<Loan>, initialCapital: int, products: int, tier: Tier): (r: int)
    ensures r >= 0
  {
    var afterLoans := AfterRepayments(cash, loans);
    Max(0, Max(0, afterLoans - Tax(afterLoans, initialCapital)) - WarehouseFee(products, tier))
  }

  /** Company c after the year-end settlement of a year that began with
      the given cash, loans, miners and production lines. */
  ghost predicate SettledFrom(c: Company, cash: int, loans: seq<Loan>, miners: seq<Asset>, lines: seq<Asset>, capital: int)
    reads c
  {
    && c.Valid()
    && c.cash == SettledCash(cash, loans, capital, c.inventoryProducts, c.productTier)
    && c.loans == Renewed(loans)
    && c.miners == Aged(miners) && c.productionLines == Aged(lines)
    && c.totalAssets == c.Worth()
  }

  class Company {
    const id: CompanyId
    const country: CountryId
    const productBaseValue: real
    const productTier: Tier
    /** The two distinct materials one product is made of. */
    const productRaws: seq<Material>

    var cash: int
    var inventoryProducts: int
    var inventoryRaw: map<Material, int>
    var miners: seq<Asset>
    var productionLines: seq<Asset>
    var rndSpent: int
    var brandValue: real
    var loans: seq<Loan>
    /** Listings the company's owner posted through a player action, each
        as it was posted. */
    var systemOrders: seq<Listing>
    /** The session that claimed the company, if any. */
    var owner: Option<SessionId>
    var playerName: Option<string>
    /** The valuation last stored by ComputeAssetValue. */
    var totalAssets: real

    /** Between two states, the company changed at most its cash and its
        raw stock, as a market purchase or sale does. */
    twostate predicate KeptButTrade()
      reads this
    {
      unchanged(this`inventoryProducts, this`miners, this`productionLines, this`rndSpent, this`brandValue,
                this`loans, this`systemOrders, this`owner, this`playerName, this`totalAssets)
    }

    /** Between two states, the company changed at most its loans and its
        cash, as taking a loan does. */
    twostate predicate KeptButLoan()
      reads this
    {
      unchanged(this`inventoryProducts, this`inventoryRaw, this`miners, this`productionLines, this`rndSpent,
                this`brandValue, this`systemOrders, this`owner, this`playerName, this`totalAssets)
    }

    /** Between two states, the company changed at most what the year-end
        settlement changes: its cash, loans, assets and stored valuation. */
    twostate predicate KeptButSettlement()
      reads this
    {
      unchanged(this`inventoryProducts, this`inventoryRaw, this`rndSpent, this`brandValue,
                this`systemOrders, this`owner, this`playerName)
    }

    /** Between two states, the company changed at most its list of posted
        orders. */
    twostate predicate KeptButOrders()
      reads this
    {
      unchanged(this`cash, this`inventoryProducts, this`inventoryRaw, this`miners, this`productionLines,
                this`rndSpent, this`brandValue, this`loans, this`owner, this`playerName, this`totalAssets)
    }

    ghost predicate Valid()
      reads this`inventoryRaw, this`brandValue
    {
      && Stocked(inventoryRaw)
      && |productRaws| == 2 && productRaws[0] != productRaws[1]
      && productBaseValue >= 0.0
      && brandValue >= 0.0
    }

    /** A fresh, unclaimed company holding only its starting capital. */
    constructor (id: CompanyId, country: CountryId, initialCapital: int, productRaws: seq<Material>)
      requires |productRaws| == 2 && productRaws[0] != productRaws[1]
      ensures Valid()
      ensures this.id == id && this.country == country && this.productRaws == productRaws
      ensures productBaseValue == 2500.0 && productTier == Low
      ensures cash == initialCapital && inventoryProducts == 0 && inventoryRaw == ZeroStock()
      ensures miners == [] && productionLines == [] && rndSpent == 0 && brandValue == 0.0
      ensures loans == [] && systemOrders == [] && owner == None && playerName == None
      ensures totalAssets == initialCapital as real
    {
      this.id := id;
      this.country := country;
      this.productBaseValue := 2500.0;
      this.productTier := Low;
      this.productRaws := productRaws;
      cash := initialCapital;
      inventoryProducts := 0;
      inventoryRaw := ZeroStock();
      miners := [];
      productionLines := [];
      rndSpent := 0;
      brandValue := 0.0;
      loans := [];
      systemOrders := [];
      owner := None;
      playerName := None;
      totalAssets := initialCapital as real;
    }

    /** The company's current worth: cash, depreciated miners and lines,
        and the inventory at cost. */
    function Worth(): real
      reads this
      requires Valid()
    {
      AssetValue(cash, miners + productionLines, inventoryProducts, inventoryRaw)
    }

    /** Stores and returns the company's current worth. */
    method ComputeAssetValue() returns (v: real)
      requires Valid()
      modifies this`totalAssets
      ensures Valid()
      ensures v == totalAssets == Worth()
    {
      var value := BookValue(miners + productionLines);
      var inventoryValue := inventoryProducts * ProductionCostPerItem + RawTotal(inventoryRaw) * RawBaseExtractionCost;
      totalAssets := cash as real + value + inventoryValue as real;
      v := totalAssets;
    }

    /** Buys a new miner: it joins the miners and its cost leaves the cash,
        affordable or not. */
    method BuyMiner(cost: int, output: int) returns (m: Asset)
      requires Valid()
      modifies this`miners, this`cash
      ensures Valid()
      ensures m == Miner(cost, output, 0)
      ensures miners == old(miners) + [m] && cash == old(cash) - cost
    {
      m := Miner(cost, output, 0);
      miners := miners + [m];
      cash := cash - cost;
    }

    /** Buys a new production line, like BuyMiner. */
    method BuyProductionLine(cost: int, capacity: int) returns (pl: Asset)
      requires Valid()
      modifies this`productionLines, this`cash
      ensures Valid()
      ensures pl == ProductionLine(cost, capacity, 0)
      ensures productionLines == old(productionLines) + [pl] && cash == old(cash) - cost
    {
      pl := ProductionLine(cost, capacity, 0);
      productionLines := productionLines + [pl];
      cash := cash - cost;
    }

    /** Extracts up to qty units of a material: no more than the miners'
        summed output, and no more than the cash pays for at the
        extraction cost. */
    method MineRaw(material: Material, qty: int) returns (r: MineResult)
      requires Valid()
      modifies this`cash, this`inventoryRaw
      ensures Valid()
      ensures TotalOutput(miners) <= 0 ==>
                r == NoMiner && cash == old(cash) && inventoryRaw == old(inventoryRaw)
      ensures TotalOutput(miners) > 0 ==>
                var q := Affordable(Min(qty, TotalOutput(miners)), old(cash), RawBaseExtractionCost);
                && r == Mined(q, q * RawBaseExtractionCost)
                && cash == old(cash) - q * RawBaseExtractionCost
                && inventoryRaw == old(inventoryRaw)[material := old(inventoryRaw)[material] + q]
      ensures old(cash) >= 0 && qty >= 0 ==>
                && 0 <= cash <= old(cash)
                && old(inventoryRaw)[material] <= inventoryRaw[material] <= old(inventoryRaw)[material] + qty
    {
      var totalOutput := TotalOutput(miners);
      if totalOutput <= 0 {
        return NoMiner;
      }
      var possible := Min(qty, totalOutput);
      var cost := possible * RawBaseExtractionCost;
      if cash < cost {
        possible := TruncDiv(cash, RawBaseExtractionCost);
        cost := possible * RawBaseExtractionCost;
      }
      cash := cash - cost;
      inventoryRaw := inventoryRaw[material := inventoryRaw[material] + possible];
      r := Mined(possible, cost);
    }

    /** Takes n units of each of the product's materials out of the raw
        stock, never below zero. */
    method ConsumeRaws(n: int)
      requires Valid()
      modifies this`inventoryRaw
      ensures Valid()
      ensures inventoryRaw == Consumed(old(inventoryRaw), productRaws, n)
    {
      for j := 0 to |productRaws|
        invariant Stocked(inventoryRaw)
        invariant forall m :: m in inventoryRaw ==>
                    inventoryRaw[m] == if m in productRaws[..j] then Max(0, old(inventoryRaw)[m] - n) else old(inventoryRaw)[m]
      {
        var m := productRaws[j];
        assert productRaws[..j + 1] == productRaws[..j] + [m];
        inventoryRaw := inventoryRaw[m := inventoryRaw[m] - n];
        if inventoryRaw[m] < 0 {
          inventoryRaw := inventoryRaw[m := 0];
        }
      }
      assert productRaws[..|productRaws|] == productRaws;
    }

    /** Produces up to qty products: no more than the lines' summed
        capacity, than the scarcer of the two product materials, and than
        the cash pays for at the production cost; each product consumes one
        unit of each of its materials. */
    method ProduceProducts(qty: int) returns (r: ProduceResult)
      requires Valid()
      modifies this`cash, this`inventoryRaw, this`inventoryProducts
      ensures Valid()
      ensures TotalCapacity(productionLines) <= 0 ==>
                && r == NoProductionLine && cash == old(cash)
                && inventoryRaw == old(inventoryRaw) && inventoryProducts == old(inventoryProducts)
      ensures TotalCapacity(productionLines) > 0 ==>
                var n := Affordable(Min(Min(qty, TotalCapacity(productionLines)), CanByRaw(old(inventoryRaw), productRaws)),
                                    old(cash), ProductionCostPerItem);
                && r == Produced(n, n * ProductionCostPerItem)
                && cash == old(cash) - n * ProductionCostPerItem
                && inventoryProducts == old(inventoryProducts) + n
                && inventoryRaw == Consumed(old(inventoryRaw), productRaws, n)
      ensures old(cash) >= 0 && qty >= 0 ==> cash >= 0
      ensures old(cash) >= 0 && qty >= 0 && CanByRaw(old(inventoryRaw), productRaws) >= 0 ==>
                cash <= old(cash) && inventoryProducts >= old(inventoryProducts)
    {
      var totalCapacity := TotalCapacity(productionLines);
      if totalCapacity <= 0 {
        return NoProductionLine;
      }
      var canByRaw := CanByRaw(inventoryRaw, productRaws);
      var actual := Min(Min(qty, totalCapacity), canByRaw);
      var cost := actual * ProductionCostPerItem;
      if cash < cost {
        actual := TruncDiv(cash, ProductionCostPerItem);
        cost := actual * ProductionCostPerItem;
      }
      ConsumeRaws(actual);
      cash := cash - cost;
      inventoryProducts := inventoryProducts + actual;
      r := Produced(actual, cost);
    }

    /** Offers the whole product stock to a consumer market at a price per
        product.  The market takes everything when the price is within what
        its customers are willing to pay, otherwise a proportional share;
        every product sold strengthens the brand by 0.001. */
    method SellToMarket(market: AIMarket, price: int) returns (sold: int, revenue: int)
      requires Valid() && market.wealth >= 0.0 && market.population >= 0.0
      modifies this`inventoryProducts, this`cash, this`brandValue
      ensures Valid()
      ensures old(inventoryProducts) <= 0 ==>
                && sold == 0 && revenue == 0
                && inventoryProducts == old(inventoryProducts) && cash == old(cash) && brandValue == old(brandValue)
      ensures old(inventoryProducts) > 0 ==>
                && sold == SoldQty(old(inventoryProducts),
                                   CustomerValue(productBaseValue, market, productRaws, old(brandValue)), price)
                && revenue == sold * price
                && inventoryProducts == old(inventoryProducts) - sold
                && cash == old(cash) + revenue
                && brandValue == old(brandValue) + sold as real * 0.001
      ensures 0 <= sold && (old(inventoryProducts) >= 0 ==> inventoryProducts >= 0)
    {
      if inventoryProducts <= 0 {
        return 0, 0;
      }
      var customerValue := CustomerValue(productBaseValue, market, productRaws, brandValue);
      if price as real <= customerValue {
        sold := inventoryProducts;
      } else {
        var ratio := customerValue / price as real;
        sold := Trunc(inventoryProducts as real * ratio);
      }
      revenue := sold * price;
      inventoryProducts := inventoryProducts - sold;
      cash := cash + revenue;
      brandValue := brandValue + sold as real * 0.001;
    }

    /** Takes a loan: it is added with its whole term left and the amount
        is paid out. */
    method TakeLoan(loanId: string, amount: int, term: int, rate: real) returns (loan: Loan)
      requires Valid()
      modifies this`loans, this`cash
      ensures Valid()
      ensures loan == Loan(loanId, amount, term, rate, term)
      ensures loans == old(loans) + [loan] && cash == old(cash) + amount
    {
      loan := Loan(loanId, amount, term, rate, term);
      loans := loans + [loan];
      cash := cash + amount;
    }

    /** The buyer's side of a settled trade: pays the total price of the
        fills and receives their total quantity of the material. */
    method ReceiveRaw(material: Material, got: int, spent: int)
      requires Valid()
      modifies this`cash, this`inventoryRaw
      ensures Valid()
      ensures cash == old(cash) - spent
      ensures inventoryRaw == Restocked(old(inventoryRaw), material, got)
    {
      cash := cash - spent;
      inventoryRaw := inventoryRaw[material := inventoryRaw[material] + got];
    }

    /** The loan part of the year-end settlement: in list order, every
        loan that is due is repaid (the cash clamped at zero) and removed,
        every other loan has a year less left. */
    method ServiceLoans()
      requires Valid()
      modifies this`cash, this`loans
      ensures Valid()
      ensures cash == AfterRepayments(old(cash), old(loans))
      ensures loans == Renewed(old(loans))
    {
      var all := loans;
      var kept: seq<Loan> := [];
      for i := 0 to |all|
        invariant cash == AfterRepayments(old(cash), all[..i])
        invariant kept == Renewed(all[..i])
      {
        assert all[..i + 1][..i] == all[..i];
        var loan := all[i];
        if loan.remainingYears <= 1 {
          var repayment := Repayment(loan);
          cash := Max(0, cash - repayment);
        } else {
          kept := kept + [loan.(remainingYears := loan.remainingYears - 1)];
        }
      }
      assert all[..|all|] == all;
      loans := kept;
    }

    /** Every miner and production line one year older. */
    method AgeAssets()
      requires Valid()
      modifies this`miners, this`productionLines
      ensures Valid()
      ensures miners == Aged(old(miners)) && productionLines == Aged(old(productionLines))
    {
      for j := 0 to |miners|
        invariant productionLines == old(productionLines)
        invariant |miners| == |old(miners)|
        invariant forall k :: 0 <= k < j ==> miners[k] == old(miners)[k].(age := old(miners)[k].age + 1)
        invariant forall k :: j <= k < |miners| ==> miners[k] == old(miners)[k]
      {
        miners := miners[j := miners[j].(age := miners[j].age + 1)];
      }
      assert miners == Aged(old(miners));
      for j := 0 to |productionLines|
        invariant miners == Aged(old(miners))
        invariant |productionLines| == |old(productionLines)|
        invariant forall k :: 0 <= k < j ==>
                    productionLines[k] == old(productionLines)[k].(age := old(productionLines)[k].age + 1)
        invariant forall k :: j <= k < |productionLines| ==> productionLines[k] == old(productionLines)[k]
      {
        productionLines := productionLines[j := productionLines[j].(age := productionLines[j].age + 1)];
      }
    }

    /** The year-end settlement: service the loans, pay the tax on cash
        above the starting capital, pay the warehousing fee, age every
        miner and line by a year and revalue the company. */
    method YearEndSettle(initialCapital: int) returns (s: Settlement)
      requires Valid()
      modifies this`cash, this`loans, this`miners, this`productionLines, this`totalAssets
      ensures SettledFrom(this, old(cash), old(loans), old(miners), old(productionLines), initialCapital)
      ensures var afterLoans := AfterRepayments(old(cash), old(loans));
              s == Settlement(Tax(afterLoans, initialCapital), WarehouseFee(inventoryProducts, productTier), totalAssets)
    {
      ServiceLoans();
      var profitIndicator := Max(0, cash - initialCapital);
      var tax := (profitIndicator as real * TaxRate).Floor;
      cash := Max(0, cash - tax);
      var wareFee := inventoryProducts * WareRate(productTier);
      cash := Max(0, cash - wareFee);
      AgeAssets();
      var assets := ComputeAssetValue();
      s := Settlement(tax, wareFee, assets);
    }

    /** The trial-year cleanup: the company restarts with its starting
        capital and nothing else (brand, ownership and orders stay). */
    method SoftReset(initialCapital: int)
      requires Valid()
      modifies this`cash, this`inventoryProducts, this`inventoryRaw, this`miners, this`productionLines,
               this`loans, this`rndSpent, this`totalAssets
      ensures Valid()
      ensures cash == initialCapital && inventoryProducts == 0 && inventoryRaw == ZeroStock()
      ensures miners == [] && productionLines == [] && loans == [] && rndSpent == 0
      ensures totalAssets == initialCapital as real == Worth()
    {
      cash := initialCapital;
      inventoryProducts := 0;
      inventoryRaw := ZeroStock();
      miners := [];
      productionLines := [];
      loans := [];
      rndSpent := 0;
      var v := ComputeAssetValue();
      AssetValueOfCashOnly(initialCapital);
    }
  }
}

=== FILE: game.dfy ===
/** The in-memory game aggregate: the configuration, the year, the
    companies, the order books, the consumer markets, the countries and the
    history; and the routines that drive it: starting a game, posting and
    matching listings, settling a trade, advancing a year, and arbitrating
    which session owns which company. */
module Simulation {
  import opened Basics
  import opened Rules
  import opened Market
  import opened Companies

  datatype Config = Config(companies: int, countries: int, years: int, trialYearIndex: int, initialCapital: int)

  /** A partial configuration: the entries that are present replace the
      current ones. */
  datatype ConfigPatch = ConfigPatch(
    companies: Option<int>, countries: Option<int>, years: Option<int>,
    trialYearIndex: Option<int>, initialCapital: Option<int>)

  datatype Country = Country(name: CountryId, resource: Material, cycle: Cycle, mult: real)

  datatype Event =
    | Subsidy(country: CountryId, amount: int)
    | GovOrder(material: Material, qty: int, price: int)

  datatype HistoryEntry = HistoryEntry(year: int, events: seq<Event>)

  /** The random draws of a year's government phase: the roll that picks
      the event, the subsidy and the country receiving it, and the
      material, quantity, unit-price estimate and mark-up of a government
      order. */
  datatype GovDraw = GovDraw(roll: real, amount: int, countryIdx: nat,
                             material: Material, qty: int, estimate: int, markup: real)

  /** The random draws of one automated company's turn: a unit-price
      estimate per product material, the index of the market it sells to
      and the price mark-up it asks. */
  datatype AutoDraw = AutoDraw(estimates: seq<int>, marketIdx: nat, markup: real)

  const DefaultConfig := Config(6, 8, 4, 1, 10_000_000)

  /** The consumer markets without their preferences. */
  const MarketDefs: seq<AIMarket> := [
    AIMarket("A", 1.1, 1.2, Wood),
    AIMarket("B", 0.9, 1.0, Wood),
    AIMarket("C", 1.2, 0.8, Wood),
    AIMarket("D", 1.0, 1.1, Wood)]

  function Patched(cfg: Config, patch: ConfigPatch): (r: Config)
    ensures patch.companies.None? ==> r.companies == cfg.companies
    ensures patch.companies.Some? ==> r.companies == patch.companies.value
    ensures patch.countries.None? ==> r.countries == cfg.countries
    ensures patch.countries.Some? ==> r.countries == patch.countries.value
    ensures patch.years.None? ==> r.years == cfg.years
    ensures patch.years.Some? ==> r.years == patch.years.value
    ensures patch.trialYearIndex.None? ==> r.trialYearIndex == cfg.trialYearIndex
    ensures patch.trialYearIndex.Some? ==> r.trialYearIndex == patch.trialYearIndex.value
    ensures patch.initialCapital.None? ==> r.initialCapital == cfg.initialCapital
    ensures patch.initialCapital.Some? ==> r.initialCapital == patch.initialCapital.value
  {
    Config(
      if patch.companies.Some? then patch.companies.value else cfg.companies,
      if patch.countries.Some? then patch.countries.value else cfg.countries,
      if patch.years.Some? then patch.years.value else cfg.years,
      if patch.trialYearIndex.Some? then patch.trialYearIndex.value else cfg.trialYearIndex,
      if patch.initialCapital.Some? then patch.initialCapital.value else cfg.initialCapital)
  }

  /** The events a year's government phase records: a subsidy with
      probability 0.15, a government order with probability 0.13, nothing
      otherwise. */
  function GovEvents(d: GovDraw, countries: seq<Country>): (es: seq<Event>)
    requires d.roll < 0.15 ==> d.countryIdx < |countries|
    ensures |es| <= 1
    ensures d.roll < 0.15 <==> |es| == 1 && es[0].Subsidy?
    ensures d.roll >= 0.28 <==> es == []
  {
    if d.roll < 0.15 then [Subsidy(countries[d.countryIdx].name, d.amount)]
    else if d.roll < 0.28 then [GovOrder(d.material, d.qty, Trunc(d.estimate as real * (1.0 + d.markup)))]
    else []
  }

  // ---------------------------------------------------------------------
  // Ownership decisions
  // ---------------------------------------------------------------------

  /** The owner entry holds a claim: it is set and not empty (an empty
      session identifier is falsy and counts as no claim). */
  predicate Held(owner: Option<SessionId>)
  {
    owner.Some? && owner.value != ""
  }

  /** A claim by sid is refused when another session holds the company. */
  predicate ClaimRefused(owner: Option<SessionId>, sid: SessionId)
  {
    Held(owner) && owner.value != sid
  }

  /** Only the session recorded as owner may act for a company. */
  predicate MayAct(owner: Option<SessionId>, sid: SessionId)
  {
    owner == Some(sid)
  }

  /** The owner entry after a claim by sid. */
  function AfterClaim(owner: Option<SessionId>, sid: SessionId): (r: Option<SessionId>)
    ensures ClaimRefused(owner, sid) ==> r == owner
    ensures !ClaimRefused(owner, sid) ==> r == Some(sid)
  {
    if ClaimRefused(owner, sid) then owner else Some(sid)
  }

  /** The owner entry after a release by sid. */
  function AfterRelease(owner: Option<SessionId>, sid: SessionId): (r: Option<SessionId>)
    ensures owner == Some(sid) ==> r == None
    ensures owner != Some(sid) ==> r == owner
  {
    if owner == Some(sid) then None else owner
  }

  /** Claiming twice with the same session is the same as claiming once,
      and a session that holds a company may always claim it again. */
  lemma ClaimIdempotent(owner: Option<SessionId>, sid: SessionId)
    ensures AfterClaim(AfterClaim(owner, sid), sid) == AfterClaim(owner, sid)
    ensures MayAct(owner, sid) ==> !ClaimRefused(owner, sid)
  {
  }

  /** Once a (non-empty) session has claimed a company, every other
      session's claim is refused, and only the claimant may act. */
  lemma ClaimExcludesOthers(owner: Option<SessionId>, sid: SessionId, other: SessionId)
    requires !ClaimRefused(owner, sid) && sid != "" && other != sid
    ensures ClaimRefused(AfterClaim(owner, sid), other)
    ensures MayAct(AfterClaim(owner, sid), sid) && !MayAct(AfterClaim(owner, sid), other)
  {
  }

  /** A release by the owner frees the company for anyone; a release by
      anyone else changes nothing. */
  lemma ReleaseFrees(owner: Option<SessionId>, sid: SessionId, other: SessionId)
    ensures MayAct(owner, sid) ==> !ClaimRefused(AfterRelease(owner, sid), other)
    ensures MayAct(owner, sid) ==> !MayAct(AfterRelease(owner, sid), other)
    ensures !MayAct(owner, sid) ==> AfterRelease(owner, sid) == owner
  {
  }

  /** An order book for every material, each listing of a company among
      the first n. */
  predicate Booked(listings: map<Material, seq<Listing>>, n: nat)
  {
    && (forall m: Material :: m in listings)
    && (forall m :: m in listings ==> SoldBy(listings[m], n))
  }

  /** No consumer market has negative wealth or population. */
  predicate Solvent(ms: seq<AIMarket>)
  {
    forall a :: a in ms ==> a.wealth >= 0.0 && a.population >= 0.0
  }

  /** The consumer markets of a new game: the four fixed markets, each with
      its drawn preference. */
  predicate Opened(ms: seq<AIMarket>, preferences: seq<Material>)
    requires |preferences| == |MarketDefs|
  {
    && |ms| == |MarketDefs|
    && (forall i :: 0 <= i < |MarketDefs| ==> ms[i] == MarketDefs[i].(preference := preferences[i]))
  }

  /** The n countries of a new game: country i + 1 is rich in material
      i mod 4 and starts in the normal cycle with multiplier 1. */
  predicate Surveyed(cs: seq<Country>, n: nat)
  {
    && |cs| == n
    && (forall i :: 0 <= i < n ==> cs[i] == Country(i + 1, Materials[i % 4], Normal, 1.0))
  }

  /** An empty order book for every material. */
  function EmptyBooks(): (b: map<Material, seq<Listing>>)
    ensures forall m: Material :: m in b && b[m] == []
    ensures forall n: nat :: Booked(b, n)
  {
    var books := map m | m in MaterialSet :: [];
    assert forall m: Material :: m in books by {
      forall m: Material ensures m in books {
        EveryMaterial(m);
      }
    }
    books
  }

  /** Company k as a new game creates it: the starting capital less one
      miner and one production line bought at their base prices, nothing
      else but its two product materials, unclaimed, and valued at the
      starting capital. */
  ghost predicate Seeded(c: Company, k: nat, capital: int, raws: seq<Material>, countries: nat)
    reads c
  {
    && countries > 0
    && c.id == k + 1 && c.country == k % countries + 1 && c.productRaws == raws
    && c.cash == capital - MinerBaseCost - ProdLineCost
    && c.miners == [Miner(MinerBaseCost, 1, 0)] && c.productionLines == [ProductionLine(ProdLineCost, 200, 0)]
    && c.inventoryProducts == 0 && c.inventoryRaw == ZeroStock()
    && c.loans == [] && c.systemOrders == [] && c.rndSpent == 0 && c.brandValue == 0.0
    && c.owner == None && c.playerName == None
    && c.totalAssets == capital as real
  }

  /** The companies of a game in order: company k has identifier k + 1, is
      in a consistent state and appears only once. */
  ghost predicate Roster(cs: seq<Company>)
    reads cs`inventoryRaw, cs`brandValue
  {
    && (forall k :: 0 <= k < |cs| ==> cs[k].id == k + 1 && cs[k].Valid())
    && (forall i, j :: 0 <= i < j < |cs| ==> cs[i] != cs[j])
  }

  /** The companies of a new game, company k seeded with product materials
      productRaws[k]. */
  ghost predicate Staffed(cs: seq<Company>, capital: int, productRaws: seq<seq<Material>>, countries: nat)
    reads cs
  {
    && |cs| <= |productRaws|
    && (forall k :: 0 <= k < |cs| ==> Seeded(cs[k], k, capital, productRaws[k], countries))
  }

  /** What a company of country name receives in the government phase. */
  function SubsidyShare(d: GovDraw, countries: seq<Country>, name: CountryId): (r: int)
    requires d.roll < 0.15 ==> d.countryIdx < |countries|
    ensures r != 0 ==> d.roll < 0.15 && name == countries[d.countryIdx].name
  {
    if d.roll < 0.15 && countries[d.countryIdx].name == name then d.amount / 3 else 0
  }

  /** A company as the trial-year cleanup leaves it. */
  ghost predicate Restarted(c: Company, capital: int)
    reads c
  {
    && c.cash == capital && c.inventoryProducts == 0 && c.inventoryRaw == ZeroStock()
    && c.miners == [] && c.productionLines == [] && c.loans == [] && c.rndSpent == 0
    && c.totalAssets == capital as real
  }

  /** Every company as the trial-year cleanup leaves it. */
  ghost predicate AllRestarted(cs: seq<Company>, capital: int)
    reads cs
  {
    forall k :: 0 <= k < |cs| ==> Restarted(cs[k], capital)
  }

  /** The cash of every company, in company order. */
  ghost function CashOf(cs: seq<Company>): seq<int>
    reads cs
  {
    seq(|cs|, k requires 0 <= k < |cs| reads cs => cs[k].cash)
  }

  /** The countries after the cycle update of year: from the second year
      on, each country before reclassified from the stored valuations of
      its companies; before that, the countries unchanged. */
  ghost predicate CyclesFrom(before: seq<Country>, after: seq<Country>, cs: seq<Company>, year: int, capital: int)
    reads cs
  {
    if year >= 2 then
      && |after| == |before|
      && forall i :: 0 <= i < |after| ==> after[i] == Reclassified(before[i], AssetsIn(cs, before[i].name), capital)
    else
      after == before
  }

  /** Country c in the cycle, and with the multiplier, that the average
      valuation of its companies calls for. */
  function Reclassified(c: Country, assets: seq<real>, capital: int): (r: Country)
    ensures r.name == c.name && r.resource == c.resource
    ensures r.cycle == Classify(Average(assets, capital), capital) && r.mult == Multiplier(r.cycle)
  {
    var cycle := Classify(Average(assets, capital), capital);
    c.(cycle := cycle, mult := Multiplier(cycle))
  }

  /** The stored valuations of the companies of country name, in company
      order. */
  function AssetsIn(cs: seq<Company>, name: CountryId): (a: seq<real>)
    reads cs
    ensures |a| <= |cs|
    ensures forall x :: x in a ==> exists c :: c in cs && c.country == name && c.totalAssets == x
    ensures forall c :: c in cs && c.country == name ==> c.totalAssets in a
  {
    if cs == [] then []
    else
      var c := cs[|cs| - 1];
      var front := AssetsIn(cs[..|cs| - 1], name);
      assert forall x :: x in front ==> exists d :: d in cs && d.country == name && d.totalAssets == x by {
        forall x | x in front ensures exists d :: d in cs && d.country == name && d.totalAssets == x {
          var d :| d in cs[..|cs| - 1] && d.country == name && d.totalAssets == x;
          assert d in cs;
        }
      }
      assert forall d :: d in cs ==> d == c || d in cs[..|cs| - 1] by {
        forall d | d in cs ensures d == c || d in cs[..|cs| - 1] {
          var i :| 0 <= i < |cs| && cs[i] == d;
          if i < |cs| - 1 {
            assert cs[..|cs| - 1][i] == d;
          }
        }
      }
      front + (if c.country == name then [c.totalAssets] else [])
  }

  /** byCountry holds, for every country, the stored valuations of its
      companies in cs, and has no entry for a country without any. */
  ghost predicate Grouped(byCountry: map<CountryId, seq<real>>, cs: seq<Company>)
    reads cs
  {
    && (forall name :: name in byCountry ==> byCountry[name] == AssetsIn(cs, name))
    && (forall name :: name !in byCountry ==> AssetsIn(cs, name) == [])
  }

  /** A country none of whose companies exists is in the normal cycle
      (its average is the starting capital itself). */
  lemma CountryWithoutCompaniesIsNormal(cs: seq<Company>, name: CountryId, capital: int)
    requires capital >= 0
    requires forall c :: c in cs ==> c.country != name
    ensures AssetsIn(cs, name) == []
    ensures Classify(Average(AssetsIn(cs, name), capital), capital) == Normal
  {
    var a := AssetsIn(cs, name);
    assert forall x :: x !in a;
    EmptyCountryIsNormal(capital);
  }

  datatype ClaimResult = UnknownCompany | Occupied(holder: SessionId) | Claimed(company: CompanyId)

  /** A player action, with its parameters already read; the ids and the
      timestamp a listing or loan receives and the market a sale goes to
      are drawn by the caller. */
  datatype Action =
    | BuyMinerAction
    | BuyProdLineAction
    | MineAction(material: Material, qty: int)
    | ProduceAction(qty: int)
    | PostListingAction(material: Material, qty: int, price: int, listingId: string, ts: int)
    | BuyMarketAction(material: Material, qty: int, maxPrice: int)
    | SellAction(price: int, marketIdx: nat)
    | TakeLoanAction(amount: int, term: int, rate: real, loanId: string)
    | UnknownAction

  datatype ActionResult =
    | NoSuchCompany
    | NotOwner
    | Unknown
    | BoughtAsset(asset: Asset, cash: int)
    | MineDone(mined: MineResult, cash: int)
    | ProduceDone(produced: ProduceResult, cash: int, products: int)
    | Posted(order: Listing)
    | MarketBought(got: int, spent: int, cash: int)
    | Sold(sold: int, revenue: int, cash: int)
    | Borrowed(loan: Loan, cash: int)

  class Game {
    var started: bool
    var config: Config
    var year: int
    var isTrial: bool
    /** Company k has identifier k + 1. */
    var companies: seq<Company>
    /** The order book of every material. */
    var listings: map<Material, seq<Listing>>
    var aiMarkets: seq<AIMarket>
    var countries: seq<Country>
    var history: seq<HistoryEntry>

    /** No company object appears twice. */
    ghost predicate Distinct()
      reads this
    {
      forall i, j :: 0 <= i < j < |companies| ==> companies[i] != companies[j]
    }

    ghost predicate Valid()
      reads this`companies, this`listings, this`aiMarkets, companies`inventoryRaw, companies`brandValue
    {
      && Roster(companies)
      && Booked(listings, |companies|)
      && Solvent(aiMarkets)
    }

    /** The game before it is started: the default configuration, no
        companies, empty order books. */
    constructor ()
      ensures Valid()
      ensures !started && config == DefaultConfig && year == 0 && !isTrial
      ensures companies == [] && aiMarkets == [] && countries == [] && history == []
      ensures listings == EmptyBooks()
    {
      started := false;
      config := DefaultConfig;
      year := 0;
      isTrial := false;
      companies := [];
      listings := EmptyBooks();
      aiMarkets := [];
      countries := [];
      history := [];
    }

    /** Starts a game: applies the configuration patch, opens the consumer
        markets with the drawn preferences, founds the countries (country i
        rich in material i mod 4) and the companies (company k in country
        k mod the number of countries, with the drawn product materials,
        its starting capital, one miner and one production line), and
        empties the order books and the history.  The trial flag is left
        as it was. */
    method Start(patch: ConfigPatch, preferences: seq<Material>, productRaws: seq<seq<Material>>)
      requires |preferences| == |MarketDefs|
      requires var cfg := Patched(config, patch);
               && (cfg.companies > 0 ==> cfg.countries > 0)
               && |productRaws| >= cfg.companies
      requires forall k :: 0 <= k < |productRaws| ==> |productRaws[k]| == 2 && productRaws[k][0] != productRaws[k][1]
      modifies this
      ensures Valid()
      ensures config == Patched(old(config), patch)
      ensures started && year == 0 && isTrial == old(isTrial) && history == [] && listings == EmptyBooks()
      ensures Opened(aiMarkets, preferences)
      ensures Surveyed(countries, Max(0, config.countries))
      ensures |companies| == Max(0, config.companies)
      ensures forall k :: 0 <= k < |companies| ==> fresh(companies[k])
      ensures Staffed(companies, config.initialCapital, productRaws, |countries|)
    {
      var cfg := Patched(config, patch);
      var markets := OpenMarkets(preferences);
      var lands := FoundCountries(Max(0, cfg.countries));
      config, year, started := cfg, 0, true;
      aiMarkets, countries := markets, lands;
      listings, history := EmptyBooks(), [];
      FoundCompanies(productRaws);
    }

    /** The consumer markets of a new game, each with its drawn
        preference. */
    static method OpenMarkets(preferences: seq<Material>) returns (ms: seq<AIMarket>)
      requires |preferences| == |MarketDefs|
      ensures Opened(ms, preferences) && Solvent(ms)
    {
      ms := [];
      for i := 0 to |MarketDefs|
        invariant |ms| == i
        invariant forall j :: 0 <= j < i ==> ms[j] == MarketDefs[j].(preference := preferences[j])
        invariant forall a :: a in ms ==> a.wealth >= 0.0 && a.population >= 0.0
      {
        ms := ms + [MarketDefs[i].(preference := preferences[i])];
      }
    }

    /** The n countries of a new game: country i + 1 is rich in material
        i mod 4 and starts in the normal cycle. */
    static method FoundCountries(n: nat) returns (cs: seq<Country>)
      ensures Surveyed(cs, n)
    {
      cs := [];
      for i := 0 to n
        invariant |cs| == i
        invariant forall j :: 0 <= j < i ==> cs[j] == Country(j + 1, Materials[j % 4], Normal, 1.0)
      {
        cs := cs + [Country(i + 1, Materials[i % |Materials|], Normal, 1.0)];
      }
    }

    /** Founds the companies of a new game, in order, spread over the
        countries already founded. */
    method FoundCompanies(productRaws: seq<seq<Material>>)
      requires config.companies > 0 ==> |countries| > 0
      requires |productRaws| >= config.companies
      requires forall k :: 0 <= k < |productRaws| ==> |productRaws[k]| == 2 && productRaws[k][0] != productRaws[k][1]
      modifies this`companies
      ensures |companies| == Max(0, config.companies)
      ensures Roster(companies) && Staffed(companies, config.initialCapital, productRaws, |countries|)
      ensures forall k :: 0 <= k < |companies| ==> fresh(companies[k])
    {
      var n, capital, lands := Max(0, config.companies), config.initialCapital, |countries|;
      companies := [];
      for k := 0 to n
        invariant |companies| == k
        invariant forall j :: 0 <= j < k ==> fresh(companies[j]) && companies[j].Valid() && Seeded(companies[j], j, capital, productRaws[j], lands)
        invariant forall i, j :: 0 <= i < j < k ==> companies[i] != companies[j]
      {
        var c := new Company(k + 1, k % lands + 1, capital, productRaws[k]);
        var miner := c.BuyMiner(MinerBaseCost, 1);
        var line := c.BuyProductionLine(ProdLineCost, 200);
        companies := companies + [c];
      }
    }

    // -------------------------------------------------------------------
    // The market
    // -------------------------------------------------------------------

    /** Appends a sell order to the book of its material, unvalidated. */
    method PostListing(seller: CompanyId, material: Material, qty: int, price: int, listingId: string, ts: int)
      returns (order: Listing)
      requires Valid() && 1 <= seller <= |companies|
      modifies this`listings
      ensures Valid()
      ensures order == Listing(listingId, seller, qty, price, ts)
      ensures listings == old(listings)[material := old(listings)[material] + [order]]
    {
      order := Listing(listingId, seller, qty, price, ts);
      listings := listings[material := listings[material] + [order]];
    }

    /** Matches a buy request for qty units at unit prices up to ceiling
        against the book of material, cheapest first and, at equal prices,
        oldest first; the listings it empties are removed from the book. */
    method MatchBuy(material: Material, qty: int, ceiling: int) returns (fills: seq<Fill>)
      requires Valid()
      modifies this`listings
      ensures Valid()
      ensures fills == MatchFills(old(listings)[material], qty, ceiling)
      ensures listings == old(listings)[material := AfterMatch(old(listings)[material], qty, ceiling)]
      ensures forall f :: f in fills ==> 1 <= f.seller <= |companies|
    {
      var ls := listings[material];
      var cur, removed;
      fills, cur, removed := MatchWalk(ls, qty, ceiling);
      var kept := Compact(cur, removed);
      MatchKeepsSellers(ls, qty, ceiling, |companies|);
      listings := listings[material := kept];
    }

    /** Pays every seller qty * price for each of the fills and returns
        their total quantity and total price. */
    method PaySellers(fills: seq<Fill>) returns (got: int, spent: int)
      requires Distinct()
      requires forall f :: f in fills ==> 1 <= f.seller <= |companies|
      modifies companies`cash
      ensures got == FillQty(fills) && spent == FillCost(fills)
      ensures forall k :: 0 <= k < |companies| ==> companies[k].cash == old(companies[k].cash) + Income(fills, k + 1)
    {
      got := 0;
      spent := 0;
      ghost var cash0 := seq(|companies|, k requires 0 <= k < |companies| reads this, companies => companies[k].cash);
      for i := 0 to |fills|
        invariant got == FillQty(fills[..i]) && spent == FillCost(fills[..i])
        invariant forall k :: 0 <= k < |companies| ==> companies[k].cash == cash0[k] + Income(fills[..i], k + 1)
      {
        var a := fills[i];
        assert fills[..i + 1][..i] == fills[..i];
        assert a in fills;
        var seller := companies[a.seller - 1];
        got := got + a.qty;
        spent := spent + a.qty * a.price;
        seller.cash := seller.cash + a.qty * a.price;
      }
      assert fills[..|fills|] == fills;
    }

    /** The buyer at position buyer pays spent and receives got units of
        the material; no other company changes. */
    method DebitBuyer(buyer: nat, material: Material, got: int, spent: int)
      requires Valid() && buyer < |companies|
      modifies companies`cash, companies`inventoryRaw
      ensures Valid()
      ensures companies[buyer].cash == old(companies[buyer].cash) - spent
      ensures companies[buyer].inventoryRaw == Restocked(old(companies[buyer].inventoryRaw), material, got)
      ensures forall k :: 0 <= k < |companies| && k != buyer ==>
                companies[k].cash == old(companies[k].cash) && companies[k].inventoryRaw == old(companies[k].inventoryRaw)
    {
      var comp := companies[buyer];
      comp.ReceiveRaw(material, got, spent);
      assert forall k :: 0 <= k < |companies| && k != buyer ==> companies[k] != comp;
    }

    /** Settles the fills of a buy request by the company at position
        buyer: every seller receives qty * price for each of its fills, the
        buyer pays their total and receives their total quantity of the
        material. */
    method SettleFills(buyer: nat, material: Material, fills: seq<Fill>) returns (got: int, spent: int)
      requires Valid() && buyer < |companies|
      requires forall f :: f in fills ==> 1 <= f.seller <= |companies|
      modifies companies`cash, companies`inventoryRaw
      ensures Valid()
      ensures got == FillQty(fills) && spent == FillCost(fills)
      ensures forall k :: 0 <= k < |companies| ==>
                companies[k].cash == old(companies[k].cash) + Income(fills, k + 1) - (if k == buyer then spent else 0)
      ensures companies[buyer].inventoryRaw == Restocked(old(companies[buyer].inventoryRaw), material, got)
      ensures forall k :: 0 <= k < |companies| && k != buyer ==> companies[k].inventoryRaw == old(companies[k].inventoryRaw)
      ensures forall k :: 0 <= k < |companies| ==> companies[k].KeptButTrade()
    {
      got, spent := PaySellers(fills);
      DebitBuyer(buyer, material, got, spent);
    }

    // -------------------------------------------------------------------
    // Ownership
    // -------------------------------------------------------------------

    /** A session claims company cid under a player name (the session
        identifier when no name is given). */
    method Claim(sid: SessionId, cid: int, playerName: Option<string>) returns (r: ClaimResult)
      requires Valid()
      modifies companies`owner, companies`playerName
      ensures Valid()
      ensures r == UnknownCompany <==> !(1 <= cid <= |companies|)
      ensures 1 <= cid <= |companies| ==>
                var c := companies[cid - 1];
                && c.owner == AfterClaim(old(c.owner), sid)
                && (ClaimRefused(old(c.owner), sid) ==> r == Occupied(old(c.owner).value) && c.playerName == old(c.playerName))
                && (!ClaimRefused(old(c.owner), sid) ==>
                      r == Claimed(cid)
                      && c.playerName == Some(if playerName.Some? && playerName.value != "" then playerName.value else sid))
      ensures forall k :: 0 <= k < |companies| && k != cid - 1 ==>
                companies[k].owner == old(companies[k].owner) && companies[k].playerName == old(companies[k].playerName)
    {
      if !(1 <= cid <= |companies|) {
        return UnknownCompany;
      }
      var comp := companies[cid - 1];
      if comp.owner.Some? && comp.owner.value != "" && comp.owner.value != sid {
        return Occupied(comp.owner.value);
      }
      comp.owner := Some(sid);
      comp.playerName := Some(if playerName.Some? && playerName.value != "" then playerName.value else sid);
      r := Claimed(cid);
    }

    /** A session gives up company cid; only the owning session can. */
    method Release(sid: SessionId, cid: int)
      requires Valid()
      modifies companies`owner, companies`playerName
      ensures Valid()
      ensures 1 <= cid <= |companies| ==>
                var c := companies[cid - 1];
                && c.owner == AfterRelease(old(c.owner), sid)
                && c.playerName == (if old(c.owner) == Some(sid) then None else old(c.playerName))
      ensures forall k :: 0 <= k < |companies| && k != cid - 1 ==>
                companies[k].owner == old(companies[k].owner) && companies[k].playerName == old(companies[k].playerName)
    {
      if 1 <= cid <= |companies| {
        var comp := companies[cid - 1];
        if comp.owner == Some(sid) {
          comp.owner := None;
          comp.playerName := None;
        }
      }
    }

    /** What the buy_market action of the company at position k promises:
        the fills are those of matching the request against the book of
        the material, each seller receives its income and the buyer pays
        the total and restocks what it got, the book keeps what the match
        left, and nothing else of any company changes. */
    twostate predicate Bought(k: nat, material: Material, qty: int, maxPrice: int, got: int, spent: int)
      reads this, companies
    {
      && k < |companies| && companies == old(companies)
      && material in old(listings) && material in old(companies[k].inventoryRaw)
      && var fs := MatchFills(old(listings)[material], qty, maxPrice);
      && got == FillQty(fs) && spent == FillCost(fs)
      && (forall j :: 0 <= j < |companies| ==>
            companies[j].cash == old(companies[j].cash) + Income(fs, j + 1) - (if j == k then spent else 0))
      && listings == old(listings)[material := AfterMatch(old(listings)[material], qty, maxPrice)]
      && companies[k].inventoryRaw == Restocked(old(companies[k].inventoryRaw), material, got)
      && (forall j :: 0 <= j < |companies| && j != k ==> companies[j].inventoryRaw == old(companies[j].inventoryRaw))
      && forall j :: 0 <= j < |companies| ==> companies[j].KeptButTrade()
    }

    /** A purchase moves cash between the companies of the game and
        creates or destroys none: their total cash is unchanged. */
    twostate lemma PurchaseConservesCash(k: nat, material: Material, qty: int, maxPrice: int, got: int, spent: int)
      requires old(Valid()) && Bought(k, material, qty, maxPrice, got, spent)
      ensures Sum(CashOf(companies)) == Sum(old(CashOf(companies)))
    {
      var book := old(listings)[material];
      var fs := MatchFills(book, qty, maxPrice);
      MatchKeepsSellers(book, qty, maxPrice, |companies|);
      SettledPointwise(old(CashOf(companies)), CashOf(companies), k, fs);
      SettlementConservesCash(old(CashOf(companies)), k, fs);
    }

    /** The buy_market action of the company at position k: matches the
        request against the book of the material and settles the fills. */
    method BuyMarket(k: nat, material: Material, qty: int, maxPrice: int) returns (got: int, spent: int)
      requires Valid() && k < |companies|
      modifies this`listings, companies`cash, companies`inventoryRaw
      ensures Valid()
      ensures Bought(k, material, qty, maxPrice, got, spent)
    {
      label start:
      var fills := MatchBuy(material, qty, maxPrice);
      assert forall j :: 0 <= j < |companies| ==> unchanged@start(companies[j]);
      got, spent := SettleFills(k, material, fills);
      assert material in old(listings) && material in old(companies[k].inventoryRaw);
      assert forall j :: 0 <= j < |companies| ==> companies[j].KeptButTrade();
      assert companies[k].inventoryRaw == Restocked(old(companies[k].inventoryRaw), material, got);
    }

    /** What the post_listing action of the company at position k promises:
        the order goes at the end of the book of its material and of the
        company's own list, and nothing else of any company changes. */
    twostate predicate PostedOrder(k: nat, material: Material, qty: int, price: int, listingId: string, ts: int,
                                   order: Listing)
      reads this, companies
    {
      && k < |companies| && companies == old(companies) && material in old(listings)
      && order == Listing(listingId, k + 1, qty, price, ts)
      && listings == old(listings)[material := old(listings)[material] + [order]]
      && companies[k].systemOrders == old(companies[k].systemOrders) + [order]
      && (forall j :: 0 <= j < |companies| && j != k ==> companies[j].systemOrders == old(companies[j].systemOrders))
      && forall j :: 0 <= j < |companies| ==> companies[j].KeptButOrders()
    }

    /** The post_listing action of the company at position k. */
    method PostOrder(k: nat, material: Material, qty: int, price: int, listingId: string, ts: int)
      returns (order: Listing)
      requires Valid() && k < |companies|
      modifies this`listings, companies`systemOrders
      ensures Valid()
      ensures PostedOrder(k, material, qty, price, listingId, ts, order)
    {
      order := PostListing(k + 1, material, qty, price, listingId, ts);
      var comp := companies[k];
      comp.systemOrders := comp.systemOrders + [order];
    }

    /** A player action by session sid on company cid.  An unknown company,
        or one the session does not own, is refused before anything
        changes. */
    method PlayerAction(sid: SessionId, cid: int, action: Action) returns (r: ActionResult)
      requires Valid()
      requires action.SellAction? ==> action.marketIdx < |aiMarkets|
      modifies this`listings, companies
      ensures Valid()
      ensures r == NoSuchCompany <==> !(1 <= cid <= |companies|)
      ensures r == NotOwner <==> 1 <= cid <= |companies| && !MayAct(old(companies[cid - 1].owner), sid)
      ensures r == NoSuchCompany || r == NotOwner ==>
                listings == old(listings) && forall k :: 0 <= k < |companies| ==> unchanged(companies[k])
      ensures 1 <= cid <= |companies| && MayAct(old(companies[cid - 1].owner), sid) ==>
                Performed(cid - 1, action, r)
    {
      if !(1 <= cid <= |companies|) {
        return NoSuchCompany;
      }
      var comp := companies[cid - 1];
      if comp.owner != Some(sid) {
        return NotOwner;
      }
      r := Perform(cid - 1, action);
    }

    /** What carrying out an action for the company at position k
        promises, between the state before and after it. */
    twostate predicate Performed(k: nat, action: Action, r: ActionResult)
      reads this, companies
    {
      && k < |companies| && companies == old(companies)
      && r != NoSuchCompany && r != NotOwner
      && (r == Unknown <==> action.UnknownAction?)
      && (r.MarketBought? <==> action.BuyMarketAction?)
      && (r.Posted? <==> action.PostListingAction?)
      && (r.Borrowed? <==> action.TakeLoanAction?)
      && (r.BoughtAsset? <==> action.BuyMinerAction? || action.BuyProdLineAction?)
      && (r.MineDone? <==> action.MineAction?)
      && (r.ProduceDone? <==> action.ProduceAction?)
      && (r.Sold? <==> action.SellAction?)
      && (action.BuyMarketAction? ==>
            && Bought(k, action.material, action.qty, action.maxPrice, r.got, r.spent)
            && r.cash == companies[k].cash)
      && (action.PostListingAction? ==>
            PostedOrder(k, action.material, action.qty, action.price, action.listingId, action.ts, r.order))
      && (action.TakeLoanAction? ==>
            && r.loan == Loan(action.loanId, action.amount, action.term, action.rate, action.term)
            && companies[k].loans == old(companies[k].loans) + [r.loan]
            && r.cash == companies[k].cash == old(companies[k].cash) + action.amount
            && companies[k].KeptButLoan())
      && (action.UnknownAction? ==>
            listings == old(listings) && forall j :: 0 <= j < |companies| ==> unchanged(companies[j]))
      && (OwnAction(action) ==>
            listings == old(listings) && forall j :: 0 <= j < |companies| && j != k ==> unchanged(companies[j]))
    }

    /** An action that changes the company acting and nothing else. */
    predicate OwnAction(action: Action)
    {
      !(action.PostListingAction? || action.BuyMarketAction? || action.UnknownAction?)
    }

    /** Carries out an action for the company at position k, whose owner
        has been checked. */
    method Perform(k: nat, action: Action) returns (r: ActionResult)
      requires Valid() && k < |companies|
      requires action.SellAction? ==> action.marketIdx < |aiMarkets|
      modifies this`listings, companies
      ensures Valid()
      ensures Performed(k, action, r)
    {
      if OwnAction(action) {
        r := PerformOwn(k, action);
        return;
      }
      match action {
        case PostListingAction(material, qty, price, listingId, ts) =>
          var order := PostOrder(k, material, qty, price, listingId, ts);
          r := Posted(order);
        case BuyMarketAction(material, qty, maxPrice) =>
          var got, spent := BuyMarket(k, material, qty, maxPrice);
          r := MarketBought(got, spent, companies[k].cash);
        case UnknownAction =>
          r := Unknown;
      }
    }

    /** Carries out an action that changes the company at position k
        alone. */
    method PerformOwn(k: nat, action: Action) returns (r: ActionResult)
      requires Valid() && k < |companies| && OwnAction(action)
      requires action.SellAction? ==> action.marketIdx < |aiMarkets|
      modifies companies[k]
      ensures Valid()
      ensures Performed(k, action, r)
    {
      var comp := companies[k];
      match action {
        case BuyMinerAction =>
          var m := comp.BuyMiner(MinerBaseCost, 1);
          r := BoughtAsset(m, comp.cash);
        case BuyProdLineAction =>
          var pl := comp.BuyProductionLine(ProdLineCost, 200);
          r := BoughtAsset(pl, comp.cash);
        case MineAction(material, qty) =>
          var res := comp.MineRaw(material, qty);
          r := MineDone(res, comp.cash);
        case ProduceAction(qty) =>
          var res := comp.ProduceProducts(qty);
          r := ProduceDone(res, comp.cash, comp.inventoryProducts);
        case SellAction(price, marketIdx) =>
          var sold, revenue := comp.SellToMarket(aiMarkets[marketIdx], price);
          r := Sold(sold, revenue, comp.cash);
        case TakeLoanAction(amount, term, rate, loanId) =>
          var loan := comp.TakeLoan(loanId, amount, term, rate);
          r := Borrowed(loan, comp.cash);
      }
      assert forall j :: 0 <= j < |companies| && j != k ==> unchanged(companies[j]);
    }

    // -------------------------------------------------------------------
    // The year
    // -------------------------------------------------------------------

    /** The government phase of a year: it records the drawn event, and a
        subsidy pays a third of its amount (rounded down) to every company
        of the chosen country. */
    method GovernmentPhase(d: GovDraw) returns (events: seq<Event>)
      requires Valid()
      requires d.roll < 0.15 ==> d.countryIdx < |countries|
      modifies companies`cash
      ensures Valid()
      ensures events == GovEvents(d, countries)
      ensures forall k :: 0 <= k < |companies| ==>
                companies[k].cash == old(companies[k].cash) + SubsidyShare(d, countries, companies[k].country)
    {
      events := GovEvents(d, countries);
      if d.roll < 0.15 {
        var name := countries[d.countryIdx].name;
        ghost var cash0 := seq(|companies|, k requires 0 <= k < |companies| reads this, companies => companies[k].cash);
        for i := 0 to |companies|
          invariant forall k :: 0 <= k < |companies| ==>
                      companies[k].cash == cash0[k] + (if k < i && companies[k].country == name then d.amount / 3 else 0)
        {
          var comp := companies[i];
          if comp.country == name {
            comp.cash := comp.cash + d.amount / 3;
          }
        }
      }
    }

    /** The automated purchases of the company at position k: for each of
        its product materials of which it holds fewer than 300 units, a buy
        request for 200 units at up to 1.2 times the drawn unit-price
        estimate, settled like a player's purchase. */
    method AutoRestock(k: nat, estimates: seq<int>)
      requires Valid() && k < |companies| && |estimates| == |companies[k].productRaws|
      modifies this`listings, companies`cash, companies`inventoryRaw
      ensures Valid()
      ensures forall j :: 0 <= j < |companies| && j != k ==> companies[j].inventoryRaw == old(companies[j].inventoryRaw)
    {
      var comp := companies[k];
      ghost var raw0 := seq(|companies|, j requires 0 <= j < |companies| reads this, companies => companies[j].inventoryRaw);
      for i := 0 to |comp.productRaws|
        invariant Valid()
        invariant forall j :: 0 <= j < |companies| && j != k ==> companies[j].inventoryRaw == raw0[j]
      {
        var r := comp.productRaws[i];
        if comp.inventoryRaw[r] < 300 {
          var got, spent := BuyMarket(k, r, 200, Trunc(estimates[i] as real * 1.2));
        }
      }
    }

    /** The automated production and sale of company comp: a
        batch of up to 200 products, then, when it holds products, an offer
        of all of them to the drawn consumer market at the base value
        marked up by the drawn rate. */
    method AutoProduceSell(comp: Company, marketIdx: nat, markup: real)
      requires Valid() && comp in companies && marketIdx < |aiMarkets|
      modifies comp`cash, comp`inventoryRaw, comp`inventoryProducts, comp`brandValue
      ensures Valid()
    {
      var produced := comp.ProduceProducts(200);
      if comp.inventoryProducts > 0 {
        var sold, revenue := comp.SellToMarket(aiMarkets[marketIdx], Trunc(comp.productBaseValue * (1.0 + markup)));
      }
    }

    /** The automated turns of the year: every company nobody has claimed
        restocks, produces and sells; a claimed company's stock and brand
        are left alone (its cash still changes when an automated company
        buys its listings). */
    method RunAutomation(autos: seq<AutoDraw>)
      requires Valid() && |autos| == |companies|
      requires forall k :: 0 <= k < |companies| ==>
                 |autos[k].estimates| == |companies[k].productRaws| && autos[k].marketIdx < |aiMarkets|
      modifies this`listings, companies`cash, companies`inventoryRaw, companies`inventoryProducts, companies`brandValue
      ensures Valid()
      ensures forall k :: 0 <= k < |companies| && companies[k].owner.Some? ==>
                && companies[k].inventoryRaw == old(companies[k].inventoryRaw)
                && companies[k].inventoryProducts == old(companies[k].inventoryProducts)
                && companies[k].brandValue == old(companies[k].brandValue)
    {
      ghost var raw0 := seq(|companies|, j requires 0 <= j < |companies| reads this, companies => companies[j].inventoryRaw);
      ghost var products0 := seq(|companies|, j requires 0 <= j < |companies| reads this, companies => companies[j].inventoryProducts);
      ghost var brand0 := seq(|companies|, j requires 0 <= j < |companies| reads this, companies => companies[j].brandValue);
      for k := 0 to |companies|
        invariant Valid()
        invariant forall j :: 0 <= j < |companies| && (k <= j || companies[j].owner.Some?) ==>
                    && companies[j].inventoryRaw == raw0[j]
                    && companies[j].inventoryProducts == products0[j]
                    && companies[j].brandValue == brand0[j]
      {
        if companies[k].owner.None? {
          AutoRestock(k, autos[k].estimates);
          AutoProduceSell(companies[k], autos[k].marketIdx, autos[k].markup);
        }
      }
    }

    /** Between two states, every company went through the year-end
        settlement from the state it had in the first. */
    twostate predicate AllSettled()
      reads this`companies, this`config, companies
    {
      && companies == old(companies)
      && forall k :: 0 <= k < |old(companies)| ==>
           var c := old(companies)[k];
           SettledFrom(c, old(c.cash), old(c.loans), old(c.miners), old(c.productionLines), config.initialCapital)
    }

    /** The year-end settlement of every company. */
    method SettleAll()
      requires Valid()
      modifies companies`cash, companies`loans, companies`miners, companies`productionLines, companies`totalAssets
      ensures Valid()
      ensures AllSettled()
      ensures forall k :: 0 <= k < |companies| ==> companies[k].KeptButSettlement()
    {
      for i := 0 to |companies|
        invariant forall j :: 0 <= j < i ==>
                    var c := companies[j];
                    SettledFrom(c, old(c.cash), old(c.loans), old(c.miners), old(c.productionLines), config.initialCapital)
        invariant forall j :: i <= j < |companies| ==> unchanged(companies[j])
      {
        var s := companies[i].YearEndSettle(config.initialCapital);
      }
    }

    /** The trial-year cleanup: in the trial year every company restarts
        with the starting capital and nothing else. */
    method TrialCleanup()
      requires Valid()
      modifies companies`cash, companies`inventoryProducts, companies`inventoryRaw, companies`miners,
               companies`productionLines, companies`loans, companies`rndSpent, companies`totalAssets
      ensures Valid()
      ensures isTrial ==> AllRestarted(companies, config.initialCapital)
      ensures !isTrial ==> unchanged(companies)
    {
      if isTrial {
        for i := 0 to |companies|
          invariant Valid()
          invariant forall j :: 0 <= j < i ==> Restarted(companies[j], config.initialCapital)
        {
          companies[i].SoftReset(config.initialCapital);
        }
      }
    }

    /** The business cycles: from the second year on, every country is
        reclassified from the stored valuations of its companies. */
    method UpdateCycles()
      requires Valid()
      modifies this`countries
      ensures Valid()
      ensures CyclesFrom(old(countries), countries, companies, year, config.initialCapital)
    {
      if year < 2 {
        return;
      }
      var byCountry := GroupByCountry(companies);
      var updated := ReclassifyAll(countries, byCountry, companies, config.initialCapital);
      countries := updated;
    }

    /** The stored valuations of the companies, grouped by country in
        company order; a country without companies has no entry. */
    static method GroupByCountry(cs: seq<Company>) returns (byCountry: map<CountryId, seq<real>>)
      ensures Grouped(byCountry, cs)
    {
      byCountry := map[];
      for i := 0 to |cs|
        invariant Grouped(byCountry, cs[..i])
      {
        var comp := cs[i];
        var arr := if comp.country in byCountry then byCountry[comp.country] else [];
        byCountry := byCountry[comp.country := arr + [comp.totalAssets]];
        assert cs[..i + 1][..i] == cs[..i];
      }
      assert cs[..|cs|] == cs;
    }

    /** Every country reclassified from the valuations grouped by country. */
    static method ReclassifyAll(countries: seq<Country>, byCountry: map<CountryId, seq<real>>, cs: seq<Company>, capital: int)
      returns (updated: seq<Country>)
      requires Grouped(byCountry, cs)
      ensures |updated| == |countries|
      ensures forall j :: 0 <= j < |updated| ==>
                updated[j] == Reclassified(countries[j], AssetsIn(cs, countries[j].name), capital)
    {
      updated := countries;
      for i := 0 to |updated|
        invariant |updated| == |countries|
        invariant forall j :: 0 <= j < |updated| ==>
                    updated[j] == if j < i then Reclassified(countries[j], AssetsIn(cs, countries[j].name), capital)
                                  else countries[j]
      {
        var c := updated[i];
        var arr := if c.name in byCountry then byCountry[c.name] else [];
        var avg := Average(arr, capital);
        var cycle := Classify(avg, capital);
        updated := updated[i := c.(cycle := cycle, mult := Multiplier(cycle))];
      }
    }

    /** Advances the game by a year: the year count and the trial flag, the
        government phase and its history entry, the automated turns of the
        unclaimed companies, the year-end settlement of every company, the
        trial-year cleanup, and from the second year on the business cycle
        of every country.  The random draws of the year are parameters. */
    method AdvanceYear(gov: GovDraw, autos: seq<AutoDraw>)
      requires Valid()
      requires gov.roll < 0.15 ==> gov.countryIdx < |countries|
      requires |autos| == |companies|
      requires forall k :: 0 <= k < |companies| ==>
                 |autos[k].estimates| == |companies[k].productRaws| && autos[k].marketIdx < |aiMarkets|
      modifies this`year, this`isTrial, this`history, this`listings, this`countries
      modifies companies`cash, companies`inventoryRaw, companies`inventoryProducts, companies`brandValue,
               companies`loans, companies`miners, companies`productionLines, companies`totalAssets, companies`rndSpent
      ensures Valid()
      ensures year == old(year) + 1 && isTrial == (year == config.trialYearIndex)
      ensures history == old(history) + [HistoryEntry(year, GovEvents(gov, old(countries)))]
      ensures isTrial ==> AllRestarted(companies, config.initialCapital)
      ensures CyclesFrom(old(countries), countries, companies, year, config.initialCapital)
    {
      PlayYear(gov, autos);
      ghost var played := countries;
      assert played == old(countries);
      CloseYear();
      assert CyclesFrom(played, countries, companies, year, config.initialCapital);
      assert isTrial ==> AllRestarted(companies, config.initialCapital);
    }

    /** The first part of a year: the start of the year, then the
        automated turns. */
    method PlayYear(gov: GovDraw, autos: seq<AutoDraw>)
      requires Valid()
      requires gov.roll < 0.15 ==> gov.countryIdx < |countries|
      requires |autos| == |companies|
      requires forall k :: 0 <= k < |companies| ==>
                 |autos[k].estimates| == |companies[k].productRaws| && autos[k].marketIdx < |aiMarkets|
      modifies this`year, this`isTrial, this`history, this`listings
      modifies companies`cash, companies`inventoryRaw, companies`inventoryProducts, companies`brandValue
      ensures Valid()
      ensures year == old(year) + 1 && isTrial == (year == config.trialYearIndex)
      ensures history == old(history) + [HistoryEntry(year, GovEvents(gov, countries))]
    {
      OpenYear(gov);
      RunAutomation(autos);
    }

    /** The end of a year: the year-end settlement of every company, the
        trial-year cleanup and the business cycles. */
    method CloseYear()
      requires Valid()
      modifies this`countries
      modifies companies`cash, companies`inventoryRaw, companies`inventoryProducts,
               companies`loans, companies`miners, companies`productionLines, companies`totalAssets, companies`rndSpent
      ensures Valid()
      ensures isTrial ==> AllRestarted(companies, config.initialCapital)
      ensures !isTrial ==> AllSettled()
      ensures !isTrial ==> forall k :: 0 <= k < |companies| ==> companies[k].KeptButSettlement()
      ensures CyclesFrom(old(countries), countries, companies, year, config.initialCapital)
    {
      SettleYear();
      UpdateCycles();
      assert isTrial ==> AllRestarted(companies, config.initialCapital);
      assert !isTrial ==> AllSettled();
    }

    /** The settlement of every company, followed in the trial year by the
        restart of every company. */
    method SettleYear()
      requires Valid()
      modifies companies`cash, companies`inventoryRaw, companies`inventoryProducts,
               companies`loans, companies`miners, companies`productionLines, companies`totalAssets, companies`rndSpent
      ensures Valid()
      ensures isTrial ==> AllRestarted(companies, config.initialCapital)
      ensures !isTrial ==> AllSettled()
      ensures !isTrial ==> forall k :: 0 <= k < |companies| ==> companies[k].KeptButSettlement()
    {
      SettleAll();
      if isTrial {
        TrialCleanup();
      }
    }

    /** The start of a year: the year count, the trial flag, the
        government phase (whose payments GovernmentPhase states) and its
        history entry. */
    method OpenYear(gov: GovDraw)
      requires Valid()
      requires gov.roll < 0.15 ==> gov.countryIdx < |countries|
      modifies this`year, this`isTrial, this`history, companies`cash
      ensures Valid()
      ensures year == old(year) + 1 && isTrial == (year == config.trialYearIndex)
      ensures history == old(history) + [HistoryEntry(year, GovEvents(gov, countries))]
    {
      year := year + 1;
      isTrial := year == config.trialYearIndex;
      var events := GovernmentPhase(gov);
      history := history + [HistoryEntry(year, events)];
    }
  }
}

=== FILE: market.dfy ===
/** The order book of one material and the matching of a buy request
    against it (post_listing and match_buy).

    A buy request is matched cheapest first; listings of equal price are
    matched in the order they were posted, because the listings are ordered
    by Python's stable sort on the price alone.  The request takes
    min(remaining, listing quantity) from every listing priced at or below
    the ceiling until nothing remains to buy; every listing it touched and
    left with a quantity of 0 or less is removed.  Matching moves no cash:
    the caller settles the fills. */
module Market {
  import opened Basics

  /** A standing sell order. */
  datatype Listing = Listing(id: string, seller: CompanyId, qty: int, price: int, ts: int)

  /** What a buy request acquired from one listing. */
  datatype Fill = Fill(seller: CompanyId, qty: int, price: int, orderId: string)

  /** A fill as the matching walk sees it: the rank of the listing in the
      matching order, its position in the book, and the quantity taken
      from it. */
  datatype Take = Take(rank: nat, pos: nat, qty: int)

  // ---------------------------------------------------------------------
  // The stable price order
  // ---------------------------------------------------------------------

  /** Listing i is matched before listing j: it is cheaper, or it has the
      same price and was posted earlier. */
  predicate Before(ls: seq<Listing>, i: nat, j: nat)
    requires i < |ls| && j < |ls|
  {
    ls[i].price < ls[j].price || (ls[i].price == ls[j].price && i < j)
  }

  predicate InBounds(ls: seq<Listing>, o: seq<nat>)
  {
    forall k :: 0 <= k < |o| ==> o[k] < |ls|
  }

  /** o lists positions of ls, each strictly before the next. */
  predicate InPriceOrder(ls: seq<Listing>, o: seq<nat>)
  {
    InBounds(ls, o) && forall a, b :: 0 <= a < b < |o| ==> Before(ls, o[a], o[b])
  }

  /** Inserts position i, later than every position in o, behind every
      listing that is not dearer than it: one step of a stable sort. */
  function Insert(ls: seq<Listing>, o: seq<nat>, i: nat): (r: seq<nat>)
    requires i < |ls| && InPriceOrder(ls, o)
    requires forall k :: 0 <= k < |o| ==> o[k] < i
    ensures |r| == |o| + 1
    ensures forall x :: x in r <==> x in o || x == i
    ensures InPriceOrder(ls, r)
  {
    if o == [] then [i]
    else if ls[i].price < ls[o[0]].price then
      assert forall b :: 0 < b < |o| ==> Before(ls, o[0], o[b]);
      [i] + o
    else
      var rest := Insert(ls, o[1..], i);
      assert forall x :: x in o[1..] ==> Before(ls, o[0], x) by {
        forall x | x in o[1..] ensures Before(ls, o[0], x) {
          var k :| 0 <= k < |o[1..]| && o[1..][k] == x;
          assert o[k + 1] == x;
        }
      }
      assert forall b :: 0 <= b < |rest| ==> Before(ls, o[0], rest[b]) by {
        forall b | 0 <= b < |rest| ensures Before(ls, o[0], rest[b]) {
          assert rest[b] in rest;
        }
      }
      [o[0]] + rest
  }

  /** The positions 0 .. n-1 of the book in matching order: what
      sorted(listings, key=price) produces. */
  function PriceOrder(ls: seq<Listing>, n: nat): (o: seq<nat>)
    requires n <= |ls|
    ensures |o| == n
    ensures forall k :: 0 <= k < |o| ==> o[k] < n
    ensures forall p :: 0 <= p < n ==> p in o
    ensures InPriceOrder(ls, o)
  {
    if n == 0 then []
    else
      var o' := PriceOrder(ls, n - 1);
      var r := Insert(ls, o', n - 1);
      assert forall k :: 0 <= k < |r| ==> r[k] < n by {
        forall k | 0 <= k < |r| ensures r[k] < n { assert r[k] in r; }
      }
      r
  }

  // ---------------------------------------------------------------------
  // The matching walk
  // ---------------------------------------------------------------------

  /** The takes of a buy request for rem units at prices up to ceiling,
      visiting the listings in the order o from its rank i onwards. */
  function Walk(ls: seq<Listing>, o: seq<nat>, i: nat, rem: int, ceiling: int): (w: seq<Take>)
    requires InBounds(ls, o) && i <= |o|
    decreases |o| - i
  {
    if i == |o| || rem <= 0 then []
    else if ls[o[i]].price <= ceiling then
      var t := Min(rem, ls[o[i]].qty);
      [Take(i, o[i], t)] + Walk(ls, o, i + 1, rem - t, ceiling)
    else
      Walk(ls, o, i + 1, rem, ceiling)
  }

  /** The total quantity of a list of takes. */
  function Taken(w: seq<Take>): int
  {
    if w == [] then 0 else Taken(w[..|w| - 1]) + w[|w| - 1].qty
  }

  /** The quantity taken from position p. */
  function TakenAt(w: seq<Take>, p: nat): int
  {
    if w == [] then 0
    else TakenAt(w[..|w| - 1], p) + (if w[|w| - 1].pos == p then w[|w| - 1].qty else 0)
  }

  function Positions(w: seq<Take>): set<nat>
  {
    set k | 0 <= k < |w| :: w[k].pos
  }

  /** The takes follow the matching order strictly (so no listing is
      taken from twice). */
  predicate TakesInOrder(ls: seq<Listing>, w: seq<Take>)
  {
    (forall k :: 0 <= k < |w| ==> w[k].pos < |ls|)
    && forall a, b :: 0 <= a < b < |w| ==> Before(ls, w[a].pos, w[b].pos)
  }

  function FillOf(ls: seq<Listing>, t: Take): Fill
    requires t.pos < |ls|
  {
    Fill(ls[t.pos].seller, t.qty, ls[t.pos].price, ls[t.pos].id)
  }

  function FillsOf(ls: seq<Listing>, w: seq<Take>): (fs: seq<Fill>)
    requires forall k :: 0 <= k < |w| ==> w[k].pos < |ls|
    ensures |fs| == |w|
  {
    seq(|w|, k requires 0 <= k < |w| => FillOf(ls, w[k]))
  }

  /** The book after the takes, before emptied listings are removed. */
  function Remaining(ls: seq<Listing>, w: seq<Take>): (r: seq<Listing>)
    ensures |r| == |ls|
  {
    seq(|ls|, p requires 0 <= p < |ls| => ls[p].(qty := ls[p].qty - TakenAt(w, p)))
  }

  /** The listings the request touched and left with nothing: these are
      removed from the book. */
  function Emptied(ls: seq<Listing>, w: seq<Take>): set<nat>
  {
    set p | p in Positions(w) && p < |ls| && Remaining(ls, w)[p].qty <= 0
  }

  /** The first n listings of cur, in their order, without those in gone. */
  function Survivors(cur: seq<Listing>, gone: set<nat>, n: nat): seq<Listing>
    requires n <= |cur|
  {
    if n == 0 then []
    else Survivors(cur, gone, n - 1) + (if n - 1 in gone then [] else [cur[n - 1]])
  }

  /** The takes of match_buy on the book ls. */
  function MatchTakes(ls: seq<Listing>, qty: int, ceiling: int): (w: seq<Take>)
    ensures forall k :: 0 <= k < |w| ==> w[k].pos < |ls|
  {
    WalkTakes(ls, PriceOrder(ls, |ls|), 0, qty, ceiling);
    Walk(ls, PriceOrder(ls, |ls|), 0, qty, ceiling)
  }

  /** What match_buy returns. */
  function MatchFills(ls: seq<Listing>, qty: int, ceiling: int): seq<Fill>
  {
    FillsOf(ls, MatchTakes(ls, qty, ceiling))
  }

  /** The book match_buy leaves behind. */
  function AfterMatch(ls: seq<Listing>, qty: int, ceiling: int): seq<Listing>
  {
    var w := MatchTakes(ls, qty, ceiling);
    Survivors(Remaining(ls, w), Emptied(ls, w), |ls|)
  }

  /** Total quantity of a list of fills. */
  function FillQty(fs: seq<Fill>): int
  {
    if fs == [] then 0 else FillQty(fs[..|fs| - 1]) + fs[|fs| - 1].qty
  }

  /** Total price of a list of fills: what the buyer pays. */
  function FillCost(fs: seq<Fill>): int
  {
    if fs == [] then 0 else FillCost(fs[..|fs| - 1]) + fs[|fs| - 1].qty * fs[|fs| - 1].price
  }

  /** What the fills pay to the company with identifier id. */
  function Income(fs: seq<Fill>, id: CompanyId): int
  {
    if fs == [] then 0
    else Income(fs[..|fs| - 1], id)
         + (if fs[|fs| - 1].seller == id then fs[|fs| - 1].qty * fs[|fs| - 1].price else 0)
  }

  // ---------------------------------------------------------------------
  // Facts about the walk
  // ---------------------------------------------------------------------

  lemma {:induction false} TakenPrepend(t: Take, w: seq<Take>)
    ensures Taken([t] + w) == t.qty + Taken(w)
  {
    if w != [] {
      assert ([t] + w)[..|[t] + w| - 1] == [t] + w[..|w| - 1];
      TakenPrepend(t, w[..|w| - 1]);
    }
  }

  lemma {:induction false} TakenAtPrepend(t: Take, w: seq<Take>, p: nat)
    ensures TakenAt([t] + w, p) == (if t.pos == p then t.qty else 0) + TakenAt(w, p)
  {
    if w != [] {
      assert ([t] + w)[..|[t] + w| - 1] == [t] + w[..|w| - 1];
      TakenAtPrepend(t, w[..|w| - 1], p);
    }
  }

  lemma {:induction false} PositionsPrepend(t: Take, w: seq<Take>)
    ensures Positions([t] + w) == {t.pos} + Positions(w)
  {
    var v := [t] + w;
    forall p | p in Positions(v) ensures p in {t.pos} + Positions(w) {
      var k :| 0 <= k < |v| && v[k].pos == p;
      if k > 0 { assert w[k - 1].pos == p; }
    }
    forall p | p in Positions(w) ensures p in Positions(v) {
      var k :| 0 <= k < |w| && w[k].pos == p;
      assert v[k + 1].pos == p;
    }
    assert v[0].pos == t.pos;
  }

  /** Every take of w names the listing of its own rank in o, at rank i or
      later, priced within the ceiling; it takes no more than the listing
      holds, and something from a listing holding a positive quantity. */
  predicate TakesFrom(ls: seq<Listing>, o: seq<nat>, i: nat, ceiling: int, w: seq<Take>)
    requires InBounds(ls, o)
  {
    forall k :: 0 <= k < |w| ==>
      && i <= w[k].rank < |o| && w[k].pos == o[w[k].rank]
      && ls[w[k].pos].price <= ceiling
      && w[k].qty <= ls[w[k].pos].qty
      && (ls[w[k].pos].qty > 0 ==> w[k].qty > 0)
  }

  /** The takes of the walk from rank i are of that kind. */
  lemma {:induction false} WalkTakes(ls: seq<Listing>, o: seq<nat>, i: nat, rem: int, ceiling: int)
    requires InBounds(ls, o) && i <= |o|
    ensures TakesFrom(ls, o, i, ceiling, Walk(ls, o, i, rem, ceiling))
    decreases |o| - i
  {
    if i < |o| && rem > 0 {
      var t := Min(rem, ls[o[i]].qty);
      if ls[o[i]].price <= ceiling {
        WalkTakes(ls, o, i + 1, rem - t, ceiling);
        var rest := Walk(ls, o, i + 1, rem - t, ceiling);
        TakesFromPrepend(ls, o, i, ceiling, Take(i, o[i], t), rest);
      } else {
        WalkTakes(ls, o, i + 1, rem, ceiling);
        assert Walk(ls, o, i, rem, ceiling) == Walk(ls, o, i + 1, rem, ceiling);
      }
    }
  }

  lemma TakesFromPrepend(ls: seq<Listing>, o: seq<nat>, i: nat, ceiling: int, t: Take, rest: seq<Take>)
    requires InBounds(ls, o) && i < |o|
    requires t.rank == i && t.pos == o[i] && ls[t.pos].price <= ceiling && t.qty <= ls[t.pos].qty
    requires ls[t.pos].qty > 0 ==> t.qty > 0
    requires TakesFrom(ls, o, i + 1, ceiling, rest)
    ensures TakesFrom(ls, o, i, ceiling, [t] + rest)
  {
    var w := [t] + rest;
    forall k | 0 < k < |w| ensures w[k] == rest[k - 1] { }
  }

  /** The walk visits the listings in the order o, so its takes are in
      matching order. */
  lemma {:induction false} WalkInOrder(ls: seq<Listing>, o: seq<nat>, i: nat, rem: int, ceiling: int)
    requires InPriceOrder(ls, o) && i <= |o|
    ensures TakesInOrder(ls, Walk(ls, o, i, rem, ceiling))
    decreases |o| - i
  {
    if i < |o| && rem > 0 {
      var t := Min(rem, ls[o[i]].qty);
      var rem' := if ls[o[i]].price <= ceiling then rem - t else rem;
      WalkInOrder(ls, o, i + 1, rem', ceiling);
      WalkTakes(ls, o, i + 1, rem', ceiling);
      if ls[o[i]].price <= ceiling {
        var rest := Walk(ls, o, i + 1, rem', ceiling);
        var w := [Take(i, o[i], t)] + rest;
        assert TakesFrom(ls, o, i + 1, ceiling, rest);
        forall b | 0 < b < |w| ensures Before(ls, w[0].pos, w[b].pos) {
          assert w[b] == rest[b - 1];
          assert i < rest[b - 1].rank < |o|;
        }
      }
    }
  }

  /** A request for rem >= 0 units never receives more than rem. */
  lemma {:induction false} WalkWithinRequest(ls: seq<Listing>, o: seq<nat>, i: nat, rem: int, ceiling: int)
    requires InBounds(ls, o) && i <= |o| && rem >= 0
    ensures Taken(Walk(ls, o, i, rem, ceiling)) <= rem
    decreases |o| - i
  {
    if i < |o| && rem > 0 {
      if ls[o[i]].price <= ceiling {
        var t := Min(rem, ls[o[i]].qty);
        WalkWithinRequest(ls, o, i + 1, rem - t, ceiling);
        TakenPrepend(Take(i, o[i], t), Walk(ls, o, i + 1, rem - t, ceiling));
      } else {
        WalkWithinRequest(ls, o, i + 1, rem, ceiling);
      }
    }
  }

  /** When every listing holds a positive quantity and the request was not
      filled, every listing within the ceiling was taken in full. */
  lemma {:induction false} WalkGreedy(ls: seq<Listing>, o: seq<nat>, i: nat, rem: int, ceiling: int, k: nat)
    requires InBounds(ls, o) && i <= k < |o|
    requires forall j :: 0 <= j < |o| ==> ls[o[j]].qty > 0
    requires Taken(Walk(ls, o, i, rem, ceiling)) < rem
    requires ls[o[k]].price <= ceiling
    ensures Take(k, o[k], ls[o[k]].qty) in Walk(ls, o, i, rem, ceiling)
    decreases |o| - i
  {
    assert rem > 0;
    if ls[o[i]].price <= ceiling {
      var t := Min(rem, ls[o[i]].qty);
      var rest := Walk(ls, o, i + 1, rem - t, ceiling);
      TakenPrepend(Take(i, o[i], t), rest);
      assert rem - t > 0 || rest == [];
      if k > i {
        WalkGreedy(ls, o, i + 1, rem - t, ceiling, k);
      }
    } else {
      WalkGreedy(ls, o, i + 1, rem, ceiling, k);
    }
  }

  /** Takes in matching order name each position at most once, so the
      quantity taken from a listing is that of its one take. */
  lemma {:induction false} TakenAtOrdered(ls: seq<Listing>, w: seq<Take>, p: nat)
    requires TakesInOrder(ls, w)
    ensures p !in Positions(w) ==> TakenAt(w, p) == 0
    ensures forall k :: 0 <= k < |w| && w[k].pos == p ==> TakenAt(w, p) == w[k].qty
  {
    if w != [] {
      var v := w[..|w| - 1];
      assert TakesInOrder(ls, v);
      TakenAtOrdered(ls, v, p);
      assert Positions(w) == Positions(v) + {w[|w| - 1].pos} by {
        forall q | q in Positions(w) ensures q in Positions(v) + {w[|w| - 1].pos} {
          var k :| 0 <= k < |w| && w[k].pos == q;
          if k < |w| - 1 { assert v[k].pos == q; }
        }
        forall q | q in Positions(v) ensures q in Positions(w) {
          var k :| 0 <= k < |v| && v[k].pos == q;
          assert w[k].pos == q;
        }
      }
      if w[|w| - 1].pos == p {
        forall k | 0 <= k < |v| ensures v[k].pos != p {
          assert Before(ls, w[k].pos, w[|w| - 1].pos);
        }
        assert p !in Positions(v);
      }
      forall k | 0 <= k < |w| && w[k].pos == p ensures TakenAt(w, p) == w[k].qty {
        if k < |w| - 1 {
          assert v[k].pos == p;
          assert p in Positions(v);
        }
      }
    }
  }

  lemma {:induction false} FillQtyOfTakes(ls: seq<Listing>, w: seq<Take>)
    requires forall k :: 0 <= k < |w| ==> w[k].pos < |ls|
    ensures FillQty(FillsOf(ls, w)) == Taken(w)
  {
    if w != [] {
      var v := w[..|w| - 1];
      assert FillsOf(ls, w)[..|w| - 1] == FillsOf(ls, v);
      FillQtyOfTakes(ls, v);
    }
  }

  lemma {:induction false} SurvivorsMembers(cur: seq<Listing>, gone: set<nat>, n: nat)
    requires n <= |cur|
    ensures forall p :: 0 <= p < n && p !in gone ==> cur[p] in Survivors(cur, gone, n)
    ensures forall x :: x in Survivors(cur, gone, n) ==> exists p :: 0 <= p < n && p !in gone && cur[p] == x
    ensures |Survivors(cur, gone, n)| <= n
  {
    if n > 0 {
      SurvivorsMembers(cur, gone, n - 1);
    }
  }

  // ---------------------------------------------------------------------
  // The properties of match_buy
  // ---------------------------------------------------------------------

  /** Every fill is priced at or below the ceiling, and a listing priced
      above the ceiling is neither taken from nor removed. */
  lemma MatchWithinCeiling(ls: seq<Listing>, qty: int, ceiling: int)
    ensures forall f :: f in MatchFills(ls, qty, ceiling) ==> f.price <= ceiling
    ensures forall p :: 0 <= p < |ls| && ls[p].price > ceiling ==>
              p !in Positions(MatchTakes(ls, qty, ceiling))
              && Remaining(ls, MatchTakes(ls, qty, ceiling))[p] == ls[p]
              && p !in Emptied(ls, MatchTakes(ls, qty, ceiling))
  {
    var w := MatchTakes(ls, qty, ceiling);
    var fs := MatchFills(ls, qty, ceiling);
    WalkTakes(ls, PriceOrder(ls, |ls|), 0, qty, ceiling);
    forall f | f in fs ensures f.price <= ceiling {
      var k :| 0 <= k < |fs| && fs[k] == f;
    }
    WalkInOrder(ls, PriceOrder(ls, |ls|), 0, qty, ceiling);
    forall p | 0 <= p < |ls| && ls[p].price > ceiling
      ensures p !in Positions(w) && Remaining(ls, w)[p] == ls[p]
    {
      TakenAtOrdered(ls, w, p);
    }
  }

  /** A request for qty >= 0 units never receives more than qty. */
  lemma MatchWithinRequest(ls: seq<Listing>, qty: int, ceiling: int)
    requires qty >= 0
    ensures FillQty(MatchFills(ls, qty, ceiling)) <= qty
  {
    WalkWithinRequest(ls, PriceOrder(ls, |ls|), 0, qty, ceiling);
    FillQtyOfTakes(ls, MatchTakes(ls, qty, ceiling));
  }

  /** A position nothing was taken from has nothing taken. */
  lemma {:induction false} TakenAtAbsent(w: seq<Take>, p: nat)
    requires p !in Positions(w)
    ensures TakenAt(w, p) == 0
  {
    if w != [] {
      var v := w[..|w| - 1];
      assert Positions(v) <= Positions(w) by {
        forall q | q in Positions(v) ensures q in Positions(w) {
          var k :| 0 <= k < |v| && v[k].pos == q;
          assert w[k].pos == q;
        }
      }
      assert w[|w| - 1].pos in Positions(w);
      TakenAtAbsent(v, p);
    }
  }

  /** One more take from a listing not taken from before: the book, the
      emptied listings and the fills each change by that take alone. */
  lemma TakeStep(ls: seq<Listing>, w: seq<Take>, t: Take)
    requires t.pos < |ls| && t.pos !in Positions(w)
    requires forall k :: 0 <= k < |w| ==> w[k].pos < |ls|
    ensures Positions(w + [t]) == Positions(w) + {t.pos}
    ensures Remaining(ls, w + [t]) == Remaining(ls, w)[t.pos := ls[t.pos].(qty := ls[t.pos].qty - t.qty)]
    ensures Emptied(ls, w + [t]) == Emptied(ls, w) + (if ls[t.pos].qty - t.qty <= 0 then {t.pos} else {})
    ensures FillsOf(ls, w + [t]) == FillsOf(ls, w) + [FillOf(ls, t)]
  {
    var v := w + [t];
    assert v[..|v| - 1] == w;
    TakenAtAbsent(w, t.pos);
    assert forall q :: TakenAt(v, q) == TakenAt(w, q) + (if q == t.pos then t.qty else 0);
    assert Positions(v) == Positions(w) + {t.pos} by {
      forall q | q in Positions(v) ensures q in Positions(w) + {t.pos} {
        var k :| 0 <= k < |v| && v[k].pos == q;
        if k < |w| { assert w[k].pos == q; }
      }
      forall q | q in Positions(w) ensures q in Positions(v) {
        var k :| 0 <= k < |w| && w[k].pos == q;
        assert v[k].pos == q;
      }
      assert v[|w|].pos == t.pos;
    }
  }

  /** The walk's own bookkeeping after one more take (the reduced book,
      the fills, the emptied positions) is the one `MatchTakes` prescribes. */
  lemma TakeKeeps(ls: seq<Listing>, w: seq<Take>, t: Take, cur: seq<Listing>, fills: seq<Fill>, removed: set<nat>)
    requires t.pos < |ls| && t.pos !in Positions(w)
    requires forall k :: 0 <= k < |w| ==> w[k].pos < |ls|
    requires cur == Remaining(ls, w) && fills == FillsOf(ls, w) && removed == Emptied(ls, w)
    ensures Positions(w + [t]) == Positions(w) + {t.pos}
    ensures cur[t.pos := cur[t.pos].(qty := cur[t.pos].qty - t.qty)] == Remaining(ls, w + [t])
    ensures fills + [Fill(cur[t.pos].seller, t.qty, cur[t.pos].price, cur[t.pos].id)] == FillsOf(ls, w + [t])
    ensures (if cur[t.pos].qty - t.qty <= 0 then removed + {t.pos} else removed) == Emptied(ls, w + [t])
  {
    TakenAtAbsent(w, t.pos);
    TakeStep(ls, w, t);
  }

  /** The walk's invariant survives the visit of the listing of rank i:
      a take from it when it is within the ceiling, nothing otherwise. */
  lemma WalkStep(ls: seq<Listing>, o: seq<nat>, i: nat, rem: int, ceiling: int, w: seq<Take>, target: seq<Take>)
    requires InBounds(ls, o) && i < |o| && rem > 0
    requires w + Walk(ls, o, i, rem, ceiling) == target
    ensures var t := Take(i, o[i], Min(rem, ls[o[i]].qty));
            ls[o[i]].price <= ceiling ==> (w + [t]) + Walk(ls, o, i + 1, rem - t.qty, ceiling) == target
    ensures ls[o[i]].price > ceiling ==> w + Walk(ls, o, i + 1, rem, ceiling) == target
  {
    if ls[o[i]].price <= ceiling {
      var t := Take(i, o[i], Min(rem, ls[o[i]].qty));
      var rest := Walk(ls, o, i + 1, rem - t.qty, ceiling);
      assert (w + [t]) + rest == w + ([t] + rest);
    }
  }

  /** Before the walk, the book is as posted and nothing is filled or
      emptied. */
  lemma NothingTaken(ls: seq<Listing>)
    ensures Remaining(ls, []) == ls && Emptied(ls, []) == {} && FillsOf(ls, []) == []
  {
    assert Positions([]) == {};
  }

  /** The body of the walk for the listing at position p, while something
      remains to buy: when it is priced within the ceiling, take
      min(remaining, quantity) from it, record the fill, and mark it for
      removal when that empties it. */
  method VisitListing(ls: seq<Listing>, ghost w: seq<Take>, ghost rank: nat, p: nat, remaining: int, ceiling: int,
                      cur: seq<Listing>, fills: seq<Fill>, removed: set<nat>)
    returns (remaining': int, cur': seq<Listing>, fills': seq<Fill>, removed': set<nat>)
    requires p < |ls| && p !in Positions(w)
    requires forall k :: 0 <= k < |w| ==> w[k].pos < |ls|
    requires cur == Remaining(ls, w) && fills == FillsOf(ls, w) && removed == Emptied(ls, w)
    ensures ls[p].price <= ceiling ==>
              var t := Take(rank, p, Min(remaining, ls[p].qty));
              && remaining' == remaining - t.qty
              && cur' == Remaining(ls, w + [t]) && fills' == FillsOf(ls, w + [t]) && removed' == Emptied(ls, w + [t])
    ensures ls[p].price > ceiling ==>
              remaining' == remaining && cur' == cur && fills' == fills && removed' == removed
  {
    TakenAtAbsent(w, p);
    assert cur[p] == ls[p];
    remaining', cur', fills', removed' := remaining, cur, fills, removed;
    if cur[p].price <= ceiling {
      var take := Min(remaining, cur[p].qty);
      TakeKeeps(ls, w, Take(rank, p, take), cur, fills, removed);
      fills' := fills + [Fill(cur[p].seller, take, cur[p].price, cur[p].id)];
      cur' := cur[p := cur[p].(qty := cur[p].qty - take)];
      remaining' := remaining - take;
      if cur'[p].qty <= 0 {
        removed' := removed + {p};
      }
    }
  }

  /** The walk of match_buy over the book ls: visits the listings in
      price order, takes min(remaining, quantity) from every one priced
      within the ceiling while something remains to buy, and returns the
      fills, the book with the reduced quantities, and the positions of
      the listings it emptied. */
  method MatchWalk(ls: seq<Listing>, qty: int, ceiling: int) returns (fills: seq<Fill>, cur: seq<Listing>, removed: set<nat>)
    ensures fills == MatchFills(ls, qty, ceiling)
    ensures cur == Remaining(ls, MatchTakes(ls, qty, ceiling))
    ensures removed == Emptied(ls, MatchTakes(ls, qty, ceiling))
  {
    var order := PriceOrder(ls, |ls|);
    ghost var takes;
    fills, cur, removed, takes := WalkOrder(ls, order, qty, ceiling);
  }

  /** The state of the walk once it has visited the ranks below i: the
      takes so far followed by the walk of the rest make up the whole walk,
      and the book, the fills and the emptied positions are those the takes
      so far leave. */
  ghost predicate Walked(ls: seq<Listing>, order: seq<nat>, qty: int, ceiling: int, i: nat, remaining: int,
                         takes: seq<Take>, cur: seq<Listing>, fills: seq<Fill>, removed: set<nat>)
    requires InBounds(ls, order)
  {
    && i <= |order|
    && (forall k :: 0 <= k < |takes| ==> takes[k].rank < i && takes[k].pos == order[takes[k].rank])
    && takes + Walk(ls, order, i, remaining, ceiling) == Walk(ls, order, 0, qty, ceiling)
    && cur == Remaining(ls, takes) && fills == FillsOf(ls, takes) && removed == Emptied(ls, takes)
  }

  /** In a strict order, the listing of rank i has not been taken from
      before the walk reaches it. */
  lemma NotYetTaken(ls: seq<Listing>, order: seq<nat>, i: nat, takes: seq<Take>)
    requires InPriceOrder(ls, order) && i < |order|
    requires forall k :: 0 <= k < |takes| ==> takes[k].rank < i && takes[k].pos == order[takes[k].rank]
    ensures order[i] !in Positions(takes)
    ensures forall k :: 0 <= k < |takes| ==> takes[k].pos < |ls|
  {
    forall k | 0 <= k < |takes| ensures takes[k].pos != order[i] {
      assert Before(ls, order[takes[k].rank], order[i]);
    }
  }

  /** The visit of the listing of rank i carries the state of the walk
      over to rank i + 1. */
  lemma WalkedNext(ls: seq<Listing>, order: seq<nat>, qty: int, ceiling: int, i: nat, remaining: int,
                   takes: seq<Take>, cur: seq<Listing>, fills: seq<Fill>, removed: set<nat>,
                   remaining': int, cur': seq<Listing>, fills': seq<Fill>, removed': set<nat>)
    returns (takes': seq<Take>)
    requires InBounds(ls, order) && i < |order| && remaining > 0
    requires Walked(ls, order, qty, ceiling, i, remaining, takes, cur, fills, removed)
    requires var t := Take(i, order[i], Min(remaining, ls[order[i]].qty));
             ls[order[i]].price <= ceiling ==>
               && remaining' == remaining - t.qty
               && cur' == Remaining(ls, takes + [t]) && fills' == FillsOf(ls, takes + [t]) && removed' == Emptied(ls, takes + [t])
    requires ls[order[i]].price > ceiling ==>
               remaining' == remaining && cur' == cur && fills' == fills && removed' == removed
    ensures Walked(ls, order, qty, ceiling, i + 1, remaining', takes', cur', fills', removed')
  {
    WalkStep(ls, order, i, remaining, ceiling, takes, Walk(ls, order, 0, qty, ceiling));
    if ls[order[i]].price <= ceiling {
      takes' := takes + [Take(i, order[i], Min(remaining, ls[order[i]].qty))];
    } else {
      takes' := takes;
    }
  }

  /** The loop of the walk over a given strict order of the book. */
  method WalkOrder(ls: seq<Listing>, order: seq<nat>, qty: int, ceiling: int)
    returns (fills: seq<Fill>, cur: seq<Listing>, removed: set<nat>, ghost takes: seq<Take>)
    requires InPriceOrder(ls, order)
    ensures takes == Walk(ls, order, 0, qty, ceiling)
    ensures forall k :: 0 <= k < |takes| ==> takes[k].pos < |ls|
    ensures fills == FillsOf(ls, takes) && cur == Remaining(ls, takes) && removed == Emptied(ls, takes)
  {
    cur, fills, removed, takes := ls, [], {}, [];
    var remaining := qty;
    NothingTaken(ls);
    var i := 0;
    while i < |order| && remaining > 0
      invariant Walked(ls, order, qty, ceiling, i, remaining, takes, cur, fills, removed)
      decreases |order| - i
    {
      NotYetTaken(ls, order, i, takes);
      var remaining', cur', fills', removed' := VisitListing(ls, takes, i, order[i], remaining, ceiling, cur, fills, removed);
      takes := WalkedNext(ls, order, qty, ceiling, i, remaining, takes, cur, fills, removed, remaining', cur', fills', removed');
      remaining, cur, fills, removed := remaining', cur', fills', removed';
      i := i + 1;
    }
    assert Walk(ls, order, i, remaining, ceiling) == [];
    assert takes + [] == takes;
  }

  /** Drops the listings at the positions in gone, keeping the order of
      the rest: the removal of the emptied listings after a walk. */
  method Compact(cur: seq<Listing>, gone: set<nat>) returns (kept: seq<Listing>)
    ensures kept == Survivors(cur, gone, |cur|)
    ensures forall x :: x in kept ==> x in cur
  {
    kept := [];
    for p := 0 to |cur|
      invariant kept == Survivors(cur, gone, p)
      invariant forall x :: x in kept ==> x in cur
    {
      if p !in gone {
        kept := kept + [cur[p]];
      }
    }
  }

  // ---------------------------------------------------------------------
  // Settling the fills of a buy request
  // ---------------------------------------------------------------------

  /** The cash of the companies (company k has identifier k + 1) once the
      fills are settled: every seller receives qty * price for each of its
      fills and the buyer, at position buyer, pays their total cost. */
  function Settled(cash: seq<int>, buyer: nat, fs: seq<Fill>): (r: seq<int>)
    ensures |r| == |cash|
  {
    seq(|cash|, k requires 0 <= k < |cash| =>
      cash[k] + Income(fs, k + 1) - (if k == buyer then FillCost(fs) else 0))
  }

  /** A cash table changed company by company as settling the fills
      prescribes is the settled table. */
  lemma SettledPointwise(cash: seq<int>, after: seq<int>, buyer: nat, fs: seq<Fill>)
    requires |after| == |cash|
    requires forall k :: 0 <= k < |cash| ==>
               after[k] == cash[k] + Income(fs, k + 1) - (if k == buyer then FillCost(fs) else 0)
    ensures after == Settled(cash, buyer, fs)
  {
  }

  /** Settling a trade moves cash between companies and creates or
      destroys none, provided the buyer and every seller are companies of
      the game. */
  lemma {:induction false} SettlementConservesCash(cash: seq<int>, buyer: nat, fs: seq<Fill>)
    requires buyer < |cash|
    requires forall f :: f in fs ==> 1 <= f.seller <= |cash|
    ensures Sum(Settled(cash, buyer, fs)) == Sum(cash)
  {
    if fs == [] {
      assert Settled(cash, buyer, fs) == cash;
    } else {
      var n := |fs| - 1;
      var f := fs[n];
      assert forall g :: g in fs[..n] ==> g in fs;
      assert f in fs;
      SettlementConservesCash(cash, buyer, fs[..n]);
      var prev := Settled(cash, buyer, fs[..n]);
      var d := f.qty * f.price;
      var mid := prev[f.seller - 1 := prev[f.seller - 1] + d];
      SumUpdate(prev, f.seller - 1, d);
      SumUpdate(mid, buyer, -d);
      SettledSnoc(cash, buyer, fs);
    }
  }

  /** Settling one more fill pays its seller and charges the buyer. */
  lemma SettledSnoc(cash: seq<int>, buyer: nat, fs: seq<Fill>)
    requires buyer < |cash| && fs != []
    requires 1 <= fs[|fs| - 1].seller <= |cash|
    ensures var f := fs[|fs| - 1];
            var d := f.qty * f.price;
            var prev := Settled(cash, buyer, fs[..|fs| - 1]);
            var mid := prev[f.seller - 1 := prev[f.seller - 1] + d];
            Settled(cash, buyer, fs) == mid[buyer := mid[buyer] + -d]
  {
    var n := |fs| - 1;
    var f := fs[n];
    var d := f.qty * f.price;
    var prev := Settled(cash, buyer, fs[..n]);
    var mid := prev[f.seller - 1 := prev[f.seller - 1] + d];
    assert FillCost(fs) == FillCost(fs[..n]) + d;
    forall k | 0 <= k < |cash|
      ensures Settled(cash, buyer, fs)[k] == mid[buyer := mid[buyer] + -d][k]
    {
      assert Income(fs, k + 1) == Income(fs[..n], k + 1) + (if f.seller == k + 1 then d else 0);
    }
  }

  /** A buyer that only buys from itself ends where it started. */
  lemma SelfTradeIsNeutral(cash: seq<int>, buyer: nat, fs: seq<Fill>)
    requires buyer < |cash|
    requires forall f :: f in fs ==> f.seller == buyer + 1
    ensures Settled(cash, buyer, fs) == cash
  {
    forall k | 0 <= k < |cash|
      ensures Settled(cash, buyer, fs)[k] == cash[k]
    {
      IncomeOfOneSeller(fs, buyer + 1, k + 1);
    }
  }

  lemma {:induction false} IncomeOfOneSeller(fs: seq<Fill>, seller: CompanyId, id: CompanyId)
    requires forall f :: f in fs ==> f.seller == seller
    ensures Income(fs, id) == (if id == seller then FillCost(fs) else 0)
  {
    if fs != [] {
      assert forall g :: g in fs[..|fs| - 1] ==> g in fs;
      IncomeOfOneSeller(fs[..|fs| - 1], seller, id);
      assert fs[|fs| - 1] in fs;
    }
  }

  /** Fills come out in non-decreasing price order; fills at the same
      price come from listings in the order they were posted. */
  lemma MatchInPriceOrder(ls: seq<Listing>, qty: int, ceiling: int)
    ensures forall a, b :: 0 <= a < b < |MatchFills(ls, qty, ceiling)| ==>
              MatchFills(ls, qty, ceiling)[a].price <= MatchFills(ls, qty, ceiling)[b].price
    ensures forall a, b :: 0 <= a < b < |MatchTakes(ls, qty, ceiling)| ==>
              Before(ls, MatchTakes(ls, qty, ceiling)[a].pos, MatchTakes(ls, qty, ceiling)[b].pos)
  {
    WalkInOrder(ls, PriceOrder(ls, |ls|), 0, qty, ceiling);
  }

  /** Each listing drops by exactly what was taken from it and never below
      0; an untouched listing is unchanged; with a positive quantity, a
      touched listing strictly shrinks and is removed exactly when it
      reaches 0. */
  lemma MatchListingAccounting(ls: seq<Listing>, qty: int, ceiling: int, p: nat)
    requires p < |ls|
    ensures var w := MatchTakes(ls, qty, ceiling);
            forall k :: 0 <= k < |w| && w[k].pos == p ==>
              Remaining(ls, w)[p].qty == ls[p].qty - w[k].qty >= 0
    ensures var w := MatchTakes(ls, qty, ceiling);
            p !in Positions(w) ==> Remaining(ls, w)[p] == ls[p] && p !in Emptied(ls, w)
    ensures var w := MatchTakes(ls, qty, ceiling);
            ls[p].qty > 0 && p in Positions(w) ==>
              0 <= Remaining(ls, w)[p].qty < ls[p].qty
              && (p in Emptied(ls, w) <==> Remaining(ls, w)[p].qty == 0)
  {
    var w := MatchTakes(ls, qty, ceiling);
    WalkTakes(ls, PriceOrder(ls, |ls|), 0, qty, ceiling);
    WalkInOrder(ls, PriceOrder(ls, |ls|), 0, qty, ceiling);
    TakenAtOrdered(ls, w, p);
  }

  /** When every listing holds a positive quantity and the buyer received
      less than it asked for, every listing within the ceiling was emptied
      and removed: nothing it could have bought is left behind. */
  lemma MatchGreedy(ls: seq<Listing>, qty: int, ceiling: int, p: nat)
    requires forall j :: 0 <= j < |ls| ==> ls[j].qty > 0
    requires FillQty(MatchFills(ls, qty, ceiling)) < qty
    requires p < |ls| && ls[p].price <= ceiling
    ensures p in Emptied(ls, MatchTakes(ls, qty, ceiling))
    ensures Remaining(ls, MatchTakes(ls, qty, ceiling))[p].qty == 0
  {
    var o := PriceOrder(ls, |ls|);
    var w := Walk(ls, o, 0, qty, ceiling);
    FillQtyOfTakes(ls, w);
    assert Taken(w) < qty;
    assert p in o;
    var k :| 0 <= k < |o| && o[k] == p;
    assert forall j :: 0 <= j < |o| ==> ls[o[j]].qty > 0;
    WalkGreedy(ls, o, 0, qty, ceiling, k);
    var j :| 0 <= j < |w| && w[j] == Take(k, p, ls[p].qty);
    WalkInOrder(ls, o, 0, qty, ceiling);
    TakenAtOrdered(ls, w, p);
    assert TakenAt(w, p) == ls[p].qty;
    assert p in Positions(w);
    assert Remaining(ls, w)[p].qty == 0;
  }

  /** The book after matching holds exactly the listings that were not
      emptied, in their original order, with their reduced quantities. */
  lemma MatchKeepsTheRest(ls: seq<Listing>, qty: int, ceiling: int)
    ensures var w := MatchTakes(ls, qty, ceiling);
            forall p :: 0 <= p < |ls| && p !in Emptied(ls, w) ==>
              Remaining(ls, w)[p] in AfterMatch(ls, qty, ceiling)
    ensures var w := MatchTakes(ls, qty, ceiling);
            forall x :: x in AfterMatch(ls, qty, ceiling) ==>
              exists p :: 0 <= p < |ls| && p !in Emptied(ls, w) && Remaining(ls, w)[p] == x
    ensures |AfterMatch(ls, qty, ceiling)| <= |ls|
  {
    var w := MatchTakes(ls, qty, ceiling);
    SurvivorsMembers(Remaining(ls, w), Emptied(ls, w), |ls|);
  }

  /** Every listing of the book was posted by one of companies 1 .. n. */
  predicate SoldBy(ls: seq<Listing>, n: nat)
  {
    forall x :: x in ls ==> 1 <= x.seller <= n
  }

  /** Matching invents no seller: the fills and the book left behind come
      from the sellers of the book matched against. */
  lemma MatchKeepsSellers(ls: seq<Listing>, qty: int, ceiling: int, n: nat)
    requires SoldBy(ls, n)
    ensures SoldBy(AfterMatch(ls, qty, ceiling), n)
    ensures forall f :: f in MatchFills(ls, qty, ceiling) ==> 1 <= f.seller <= n
  {
    var w := MatchTakes(ls, qty, ceiling);
    var cur := Remaining(ls, w);
    assert forall p :: 0 <= p < |ls| ==> cur[p].seller == ls[p].seller && ls[p] in ls;
    SurvivorsMembers(cur, Emptied(ls, w), |ls|);
    forall f | f in MatchFills(ls, qty, ceiling) ensures 1 <= f.seller <= n {
      var k :| 0 <= k < |w| && FillsOf(ls, w)[k] == f;
      assert ls[w[k].pos] in ls;
    }
  }

  /** A listing posted onto a book whose listings are all dearer, then
      matched by a request for exactly its quantity at a ceiling at or above
      its price, is consumed completely and removed. */
  lemma PostThenMatch(ls: seq<Listing>, l: Listing, ceiling: int)
    requires forall j :: 0 <= j < |ls| ==> ls[j].price > l.price
    requires l.qty > 0 && l.price <= ceiling
    ensures MatchFills(ls + [l], l.qty, ceiling) == [Fill(l.seller, l.qty, l.price, l.id)]
    ensures AfterMatch(ls + [l], l.qty, ceiling) == ls
  {
    var book := ls + [l];
    var n := |ls|;
    var o := PriceOrder(book, |book|);
    assert n in o;
    forall j | 0 < j < |o| ensures o[j] != n {
      assert Before(book, o[0], o[j]);
    }
    assert o[0] == n;
    var w := MatchTakes(book, l.qty, ceiling);
    assert w == [Take(0, n, l.qty)] by {
      assert Walk(book, o, 1, 0, ceiling) == [];
    }
    assert MatchFills(book, l.qty, ceiling) == [FillOf(book, Take(0, n, l.qty))];
    var cur := Remaining(book, w);
    assert Positions(w) == {n} by {
      assert w[0].pos == n;
      forall q | q in Positions(w) ensures q == n {
        var j :| 0 <= j < |w| && w[j].pos == q;
      }
    }
    assert forall p :: 0 <= p < n ==> TakenAt(w, p) == 0;
    assert Emptied(book, w) == {n} by {
      assert TakenAt(w, n) == l.qty;
      assert cur[n].qty == 0;
    }
    assert forall m :: 0 <= m <= n ==> Survivors(cur, {n}, m) == ls[..m] by {
      forall m | 0 <= m <= n ensures Survivors(cur, {n}, m) == ls[..m] {
        SurvivorsPrefix(book, w, cur, n, m);
      }
    }
    assert ls[..n] == ls;
  }

  lemma {:induction false} SurvivorsPrefix(book: seq<Listing>, w: seq<Take>, cur: seq<Listing>, n: nat, m: nat)
    requires |book| == n + 1 && cur == Remaining(book, w) && m <= n
    requires forall p :: 0 <= p < n ==> TakenAt(w, p) == 0
    ensures Survivors(cur, {n}, m) == book[..m]
  {
    if m > 0 {
      SurvivorsPrefix(book, w, cur, n, m - 1);
      assert cur[m - 1] == book[m - 1];
      assert book[..m] == book[..m - 1] + [book[m - 1]];
    }
  }

  /** The worked example: listings of 10 at 100 and then 5 at 90, a request
      for 12 at up to 100: fills 5 at 90 then 7 at 100, leaving 3 at 100. */
  lemma MatchExample()
    ensures MatchFills(ExampleBook(), 12, 100) == [Fill(2, 5, 90, "b"), Fill(1, 7, 100, "a")]
    ensures AfterMatch(ExampleBook(), 12, 100) == [Listing("a", 1, 3, 100, 0)]
  {
    var ls := ExampleBook();
    var w := ExampleTakes();
    var cur := Remaining(ls, w);
    assert cur[0].qty == 3 && cur[1].qty == 0 by {
      assert w[..1] == [Take(0, 1, 5)];
      assert TakenAt([Take(0, 1, 5)], 0) == 0;
      assert TakenAt([Take(0, 1, 5)], 1) == 5;
    }
    assert Positions(w) == {1, 0} by {
      assert w[0].pos == 1 && w[1].pos == 0;
    }
    assert Emptied(ls, w) == {1};
    assert Survivors(cur, {1}, 1) == [cur[0]];
  }

  function ExampleBook(): seq<Listing>
  {
    [Listing("a", 1, 10, 100, 0), Listing("b", 2, 5, 90, 0)]
  }

  /** The takes of the worked example: 5 from the second listing, then 7
      from the first. */
  lemma ExampleTakes() returns (w: seq<Take>)
    ensures w == MatchTakes(ExampleBook(), 12, 100) == [Take(0, 1, 5), Take(1, 0, 7)]
  {
    var ls := ExampleBook();
    assert PriceOrder(ls, 1) == [0];
    assert PriceOrder(ls, 2) == [1, 0];
    assert Walk(ls, [1, 0], 2, 0, 100) == [];
    assert Walk(ls, [1, 0], 1, 7, 100) == [Take(1, 0, 7)];
    assert Walk(ls, [1, 0], 0, 12, 100) == [Take(0, 1, 5), Take(1, 0, 7)];
    w := [Take(0, 1, 5), Take(1, 0, 7)];
  }
}

=== FILE: rules.dfy ===
/** The economic formulas of the simulation, as pure functions: the
    affordability clip shared by extraction and production, the demand curve
    of a sale, depreciation and the book value of assets, loan service, tax,
    the warehousing fee and the business-cycle classification of a country.
    Python floats are modelled as reals; every int() applied to a float is
    an explicit Trunc. */
module Rules {
  import opened Basics

  const ProductionCostPerItem := 1000
  const RawBaseExtractionCost := 500
  const MinerBaseCost := 100_000
  const ProdLineCost := 200_000
  /** The government's tax rate on cash above the starting capital. */
  const TaxRate: real := 0.2

  /** A capital asset.  Both kinds carry a purchase cost and an age in
      years; a miner has an output per year, a production line a
      capacity. */
  datatype Asset =
    | Miner(cost: int, output: int, age: int)
    | ProductionLine(cost: int, capacity: int, age: int)

  datatype Loan = Loan(id: string, amount: int, term: int, rate: real, remainingYears: int)

  datatype Tier = Low | Mid | High

  /** A consumer market: its wealth and population multipliers and the
      material it prefers. */
  datatype AIMarket = AIMarket(name: string, wealth: real, population: real, preference: Material)

  datatype Cycle = Normal | Boom | Overheat | Recession

  // ---------------------------------------------------------------------
  // Capacity and affordability
  // ---------------------------------------------------------------------

  /** The summed output of the miners (an asset without an output adds 0). */
  function TotalOutput(assets: seq<Asset>): int
  {
    if assets == [] then 0
    else TotalOutput(assets[..|assets| - 1])
         + (if assets[|assets| - 1].Miner? then assets[|assets| - 1].output else 0)
  }

  /** The summed capacity of the production lines (an asset without a
      capacity adds 0). */
  function TotalCapacity(assets: seq<Asset>): int
  {
    if assets == [] then 0
    else TotalCapacity(assets[..|assets| - 1])
         + (if assets[|assets| - 1].ProductionLine? then assets[|assets| - 1].capacity else 0)
  }

  /** The quantity realised when wanted units costing unitCost each are
      requested with cash in hand: all of them when they are affordable,
      otherwise int(cash / unitCost).  With non-negative inputs this is the
      largest affordable quantity not above wanted. */
  function Affordable(wanted: int, cash: int, unitCost: int): (r: int)
    requires unitCost > 0
    ensures cash >= 0 && wanted >= 0 ==> 0 <= r <= wanted && r * unitCost <= cash
    ensures cash >= 0 && wanted >= 0 && r < wanted ==> cash < (r + 1) * unitCost
    ensures wanted * unitCost <= cash ==> r == wanted
  {
    if cash < wanted * unitCost then
      var q := TruncDiv(cash, unitCost);
      Scaled(q, wanted, unitCost);
      q
    else wanted
  }

  /** Comparing two multiples of a positive unit compares the counts, and
      one more unit adds the unit once. */
  lemma Scaled(a: int, b: int, u: int)
    requires u > 0
    ensures a * u < b * u ==> a < b
    ensures (a + 1) * u == a * u + u
  {
    if a * u < b * u {
      assert (b - a) * u == b * u - a * u;
      PositiveFactor(b - a, u);
    }
  }

  lemma PositiveFactor(x: int, u: int)
    requires u > 0 && x * u > 0
    ensures x > 0
  {
  }

  /** With the cash already below zero the clip turns negative: a company
      overdrawn by 1000 that asks for one unit at 500 realises int(-1000 /
      500) = -2 units at a cost of -1000. */
  lemma OverdrawnClip()
    ensures Affordable(1, -1000, RawBaseExtractionCost) == -2
    ensures Affordable(1, -1000, ProductionCostPerItem) == -1
  {
  }

  /** How many products the raw stock allows: the smaller stock of the
      product's materials (a material without an entry counts as 0). */
  function CanByRaw(raw: map<Material, int>, productRaws: seq<Material>): (n: int)
    requires |productRaws| == 2
    ensures n == Min(StockOf(raw, productRaws[0]), StockOf(raw, productRaws[1]))
    ensures forall m :: m in productRaws ==> n <= StockOf(raw, m)
  {
    Min(StockOf(raw, productRaws[0]), StockOf(raw, productRaws[1]))
  }

  function StockOf(raw: map<Material, int>, m: Material): int
  {
    if m in raw then raw[m] else 0
  }

  /** The raw stock after a batch of n products: each of the product's
      materials drops by n, floored at 0; the others are untouched. */
  function Consumed(raw: map<Material, int>, productRaws: seq<Material>, n: int): (r: map<Material, int>)
    ensures r.Keys == raw.Keys
    ensures forall m :: m in r && m !in productRaws ==> r[m] == raw[m]
    ensures forall m :: m in r && m in productRaws ==> r[m] >= 0
  {
    map m | m in raw :: if m in productRaws then Max(0, raw[m] - n) else raw[m]
  }

  /** A batch no larger than the raw stock allows consumes exactly one unit
      of each of the product's materials per product, with nothing
      clamped. */
  lemma ConsumedExactly(raw: map<Material, int>, productRaws: seq<Material>, n: int)
    requires Stocked(raw) && |productRaws| == 2
    requires 0 <= n <= CanByRaw(raw, productRaws)
    ensures forall m :: m in raw && m in productRaws ==> Consumed(raw, productRaws, n)[m] == raw[m] - n
  {
    forall m | m in raw && m in productRaws
      ensures Consumed(raw, productRaws, n)[m] == raw[m] - n
    {
      assert n <= StockOf(raw, m);
    }
  }

  // ---------------------------------------------------------------------
  // Selling to a consumer market
  // ---------------------------------------------------------------------

  /** 1.2 when the market prefers one of the company's product materials. */
  function MaterialBonus(market: AIMarket, productRaws: seq<Material>): (b: real)
    ensures b == 1.2 || b == 1.0
    ensures b == 1.2 <==> market.preference in productRaws
  {
    if market.preference in productRaws then 1.2 else 1.0
  }

  /** What a customer of the market is willing to pay for one product. */
  function CustomerValue(baseValue: real, market: AIMarket, productRaws: seq<Material>, brandValue: real): (v: real)
    requires baseValue >= 0.0 && market.wealth >= 0.0 && market.population >= 0.0 && brandValue >= 0.0
    ensures v >= 0.0
  {
    var a := baseValue * market.wealth;
    var b := a * market.population;
    var c := b * MaterialBonus(market, productRaws);
    var d := 1.0 + brandValue / 200.0;
    assert a >= 0.0 && b >= 0.0 && c >= 0.0 && d >= 1.0;
    c * d
  }

  /** A stronger brand never lowers what customers are willing to pay. */
  lemma CustomerValueGrowsWithBrand(baseValue: real, market: AIMarket, productRaws: seq<Material>, brand: real, brand': real)
    requires baseValue >= 0.0 && market.wealth >= 0.0 && market.population >= 0.0
    requires 0.0 <= brand <= brand'
    ensures CustomerValue(baseValue, market, productRaws, brand)
            <= CustomerValue(baseValue, market, productRaws, brand')
  {
    var c := baseValue * market.wealth * market.population * MaterialBonus(market, productRaws);
    assert c >= 0.0 by {
      assert baseValue * market.wealth >= 0.0;
      assert baseValue * market.wealth * market.population >= 0.0;
    }
    assert 1.0 + brand / 200.0 <= 1.0 + brand' / 200.0;
    assert c * (1.0 + brand / 200.0) <= c * (1.0 + brand' / 200.0);
  }

  /** The number of products a market takes from a stock of stock > 0 at
      the asking price: the whole stock when the price is within the
      customer value, otherwise the fraction customerValue / price of it,
      truncated. */
  function SoldQty(stock: int, customerValue: real, price: int): (q: int)
    requires stock > 0 && customerValue >= 0.0
    ensures 0 <= q <= stock
    ensures q == stock <==> price as real <= customerValue
    ensures q as real * price as real <= stock as real * customerValue || q == stock
    ensures q < stock ==> stock as real * customerValue < (q + 1) as real * price as real
  {
    if price as real <= customerValue then stock
    else
      var q := Trunc(stock as real * (customerValue / price as real));
      TruncatedShare(stock, customerValue, price, q);
      q
  }

  /** The truncated share q of a stock at a price above the customer value
      is below the stock, and it is the largest count whose price q * price
      the stock's worth stock * customerValue covers. */
  lemma TruncatedShare(stock: int, customerValue: real, price: int, q: int)
    requires stock > 0 && customerValue >= 0.0 && price as real > customerValue
    requires q == Trunc(stock as real * (customerValue / price as real))
    ensures 0 <= q < stock
    ensures q as real * price as real <= stock as real * customerValue
    ensures stock as real * customerValue < (q + 1) as real * price as real
  {
    var x := stock as real * (customerValue / price as real);
    ShareOfStock(stock as real, customerValue, price as real);
    assert 0.0 <= x < stock as real;
    assert x * price as real == stock as real * customerValue;
    assert q as real <= x < q as real + 1.0;
    FloorOfShare(x, stock as real * customerValue, stock, price as real, q);
  }

  /** A share x of a stock, worth w at price p, truncated to q. */
  lemma FloorOfShare(x: real, w: real, stock: int, p: real, q: int)
    requires 0.0 <= x < stock as real && x * p == w && p > 0.0
    requires q as real <= x < q as real + 1.0
    ensures 0 <= q < stock
    ensures q as real * p <= w < (q + 1) as real * p
  {
    ScaleUp(q as real, x, p);
    ScaleUpStrict(x, (q + 1) as real, p);
    assert x * p < (q + 1) as real * p;
    assert w == x * p;
    assert w < (q + 1) as real * p;
  }

  /** A fraction cv / p below 1 of a positive stock is less than the
      stock, and scaled back by p it is stock * cv. */
  lemma ShareOfStock(stock: real, cv: real, p: real)
    requires stock > 0.0 && cv >= 0.0 && p > cv
    ensures 0.0 <= stock * (cv / p) < stock
    ensures stock * (cv / p) * p == stock * cv
  {
    var ratio := cv / p;
    assert ratio * p == cv;
    assert 0.0 <= ratio < 1.0;
    assert stock * ratio < stock * 1.0;
  }

  lemma ScaleUp(a: real, b: real, c: real)
    requires a <= b && c >= 0.0
    ensures a * c <= b * c
  {
  }

  lemma ScaleUpStrict(a: real, b: real, c: real)
    requires a < b && c > 0.0
    ensures a * c < b * c
  {
  }

  // ---------------------------------------------------------------------
  // Valuation
  // ---------------------------------------------------------------------

  function RealMax(a: real, b: real): real { if a >= b then a else b }

  /** The book value of an asset: its cost times max(0.2, 1 - 0.2 * age). */
  function Depreciated(cost: int, age: int): (v: real)
    ensures cost >= 0 ==> 0.2 * cost as real <= v
    ensures cost >= 0 && age >= 0 ==> v <= cost as real
  {
    var f := RealMax(0.2, 1.0 - 0.2 * age as real);
    var v := cost as real * f;
    assert age >= 0 ==> f <= 1.0;
    FactorBounds(cost as real, f);
    assert cost >= 0 ==> cost as real >= 0.0;
    v
  }

  /** A factor between 0.2 and 1 keeps a non-negative amount between a
      fifth of it and itself. */
  lemma FactorBounds(c: real, f: real)
    requires 0.2 <= f
    ensures c >= 0.0 ==> 0.2 * c <= c * f
    ensures c >= 0.0 && f <= 1.0 ==> c * f <= c
  {
    if c >= 0.0 {
      ScaleUp(0.2, f, c);
      if f <= 1.0 {
        ScaleUp(f, 1.0, c);
      }
    }
  }

  /** The summed book value of a list of assets. */
  function BookValue(assets: seq<Asset>): real
  {
    if assets == [] then 0.0
    else BookValue(assets[..|assets| - 1])
         + Depreciated(assets[|assets| - 1].cost, assets[|assets| - 1].age)
  }

  function TotalCost(assets: seq<Asset>): int
  {
    if assets == [] then 0 else TotalCost(assets[..|assets| - 1]) + assets[|assets| - 1].cost
  }

  /** Every asset one year older. */
  function Aged(assets: seq<Asset>): (r: seq<Asset>)
    ensures |r| == |assets|
  {
    seq(|assets|, i requires 0 <= i < |assets| => assets[i].(age := assets[i].age + 1))
  }

  /** Depreciation never takes an asset list below a fifth of what it cost,
      nor above its cost. */
  lemma {:induction false} BookValueBounds(assets: seq<Asset>)
    requires forall i :: 0 <= i < |assets| ==> assets[i].cost >= 0 && assets[i].age >= 0
    ensures 0.2 * TotalCost(assets) as real <= BookValue(assets) <= TotalCost(assets) as real
  {
    if assets != [] {
      BookValueBounds(assets[..|assets| - 1]);
    }
  }

  /** Ageing every asset by a year never raises the book value. */
  lemma {:induction false} AgeingDepreciates(assets: seq<Asset>)
    requires forall i :: 0 <= i < |assets| ==> assets[i].cost >= 0
    ensures BookValue(Aged(assets)) <= BookValue(assets)
  {
    if assets != [] {
      var n := |assets| - 1;
      assert Aged(assets)[..n] == Aged(assets[..n]);
      AgeingDepreciates(assets[..n]);
      var a := assets[n];
      assert RealMax(0.2, 1.0 - 0.2 * (a.age + 1) as real) <= RealMax(0.2, 1.0 - 0.2 * a.age as real);
      assert Depreciated(a.cost, a.age + 1) <= Depreciated(a.cost, a.age);
    }
  }

  /** The summed raw inventory over the four materials. */
  function RawTotal(raw: map<Material, int>): int
    requires Stocked(raw)
  {
    raw[Wood] + raw[Metal] + raw[Cloth] + raw[Plastic]
  }

  /** Products valued at their production cost, raws at their extraction
      cost. */
  function InventoryValue(products: int, raw: map<Material, int>): int
    requires Stocked(raw)
  {
    products * ProductionCostPerItem + RawTotal(raw) * RawBaseExtractionCost
  }

  /** Cash plus the book value of miners and lines plus the inventory. */
  function AssetValue(cash: int, assets: seq<Asset>, products: int, raw: map<Material, int>): real
    requires Stocked(raw)
  {
    cash as real + BookValue(assets) + InventoryValue(products, raw) as real
  }

  /** With nothing but cash, a company is worth its cash. */
  lemma AssetValueOfCashOnly(cash: int)
    ensures AssetValue(cash, [], 0, ZeroStock()) == cash as real
  {
  }

  // ---------------------------------------------------------------------
  // Year-end settlement
  // ---------------------------------------------------------------------

  /** What repaying a loan costs: int(amount * (1 + rate)). */
  function Repayment(l: Loan): int
  {
    Trunc(l.amount as real * (1.0 + l.rate))
  }

  predicate Due(l: Loan) { l.remainingYears <= 1 }

  /** Cash after repaying, in list order, every loan that is due, each
      repayment clamped at 0. */
  function AfterRepayments(cash: int, loans: seq<Loan>): int
  {
    if loans == [] then cash
    else
      var c := AfterRepayments(cash, loans[..|loans| - 1]);
      if Due(loans[|loans| - 1]) then Max(0, c - Repayment(loans[|loans| - 1])) else c
  }

  /** The loans that survive a year-end: those not due, one year shorter. */
  function Renewed(loans: seq<Loan>): seq<Loan>
  {
    if loans == [] then []
    else Renewed(loans[..|loans| - 1])
         + (if Due(loans[|loans| - 1]) then []
            else [loans[|loans| - 1].(remainingYears := loans[|loans| - 1].remainingYears - 1)])
  }

  /** Every surviving loan has at least one year left, and no loans are
      added. */
  lemma {:induction false} RenewedAreRunning(loans: seq<Loan>)
    ensures forall l :: l in Renewed(loans) ==> l.remainingYears >= 1
    ensures |Renewed(loans)| <= |loans|
  {
    if loans != [] {
      RenewedAreRunning(loans[..|loans| - 1]);
    }
  }

  /** Once any loan is repaid, the cash is never negative; when no loan is
      due, the cash is untouched; repayments never add cash. */
  lemma {:induction false} RepaymentsFloor(cash: int, loans: seq<Loan>)
    ensures (exists i :: 0 <= i < |loans| && Due(loans[i])) ==> AfterRepayments(cash, loans) >= 0
    ensures (forall i :: 0 <= i < |loans| ==> !Due(loans[i])) ==> AfterRepayments(cash, loans) == cash
    ensures (forall i :: 0 <= i < |loans| ==> Repayment(loans[i]) >= 0) ==>
              AfterRepayments(cash, loans) <= Max(cash, 0)
  {
    if loans != [] {
      var n := |loans| - 1;
      RepaymentsFloor(cash, loans[..n]);
      if exists i :: 0 <= i < |loans| && Due(loans[i]) {
        var i :| 0 <= i < |loans| && Due(loans[i]);
        if i < n {
          assert Due(loans[..n][i]);
        }
      }
      if forall i :: 0 <= i < |loans| ==> Repayment(loans[i]) >= 0 {
        assert forall i :: 0 <= i < n ==> Repayment(loans[..n][i]) >= 0;
      }
    }
  }

  /** The loan list after k year-ends. */
  function RenewedFor(loans: seq<Loan>, k: nat): seq<Loan>
  {
    if k == 0 then loans else Renewed(RenewedFor(loans, k - 1))
  }

  /** A loan with n >= 1 years left is still running, with n - k years
      left, after k < n year-ends, and is gone (repaid) after the n-th. */
  lemma {:induction false} LoanRunsItsTerm(l: Loan, k: nat)
    requires l.remainingYears >= 1 && k <= l.remainingYears
    ensures k < l.remainingYears ==>
              RenewedFor([l], k) == [l.(remainingYears := l.remainingYears - k)]
    ensures k == l.remainingYears ==> RenewedFor([l], k) == []
  {
    if k > 0 {
      LoanRunsItsTerm(l, k - 1);
      var m := l.(remainingYears := l.remainingYears - (k - 1));
      assert RenewedFor([l], k) == Renewed([m]);
      assert [m][..0] == [];
    }
  }

  /** The tax on the cash above the starting capital:
      int(max(0, cash - capital) * 0.2), which is a fifth of it rounded
      down. */
  function Tax(cash: int, initialCapital: int): (t: int)
    ensures t == Max(0, cash - initialCapital) / 5
    ensures 0 <= t <= Max(0, cash - initialCapital)
    ensures cash <= initialCapital ==> t == 0
  {
    var profit := Max(0, cash - initialCapital);
    var q := profit / 5;
    assert q as real <= profit as real * TaxRate < q as real + 1.0;
    (profit as real * TaxRate).Floor
  }

  /** The warehousing fee per product for each product tier. */
  function WareRate(tier: Tier): (r: int)
    ensures r in {50, 100, 150}
  {
    match tier
    case Low => 50
    case Mid => 100
    case High => 150
  }

  /** The warehousing fee for a product inventory. */
  function WarehouseFee(products: int, tier: Tier): (fee: int)
    ensures products >= 0 ==> 50 * products <= fee <= 150 * products
  {
    products * WareRate(tier)
  }

  // ---------------------------------------------------------------------
  // Business cycle of a country
  // ---------------------------------------------------------------------

  /** The average of a country's company total assets, or the starting
      capital for a country without companies. */
  function Average(assets: seq<real>, initialCapital: int): real
  {
    if assets == [] then initialCapital as real else SumReal(assets) / |assets| as real
  }

  /** The cycle of a country from the average assets of its companies,
      evaluated in order: overheat above 1.5 times the starting capital, boom
      above 1.1 times, recession below 0.8 times, normal otherwise. */
  function Classify(avg: real, initialCapital: int): Cycle
  {
    var cap := initialCapital as real;
    if avg > 1.5 * cap then Overheat
    else if avg > 1.1 * cap then Boom
    else if avg < 0.8 * cap then Recession
    else Normal
  }

  function Multiplier(c: Cycle): real
  {
    match c
    case Overheat => 1.25
    case Boom => 1.1
    case Recession => 0.9
    case Normal => 1.0
  }

  /** Recession < normal < boom < overheat. */
  function Rank(c: Cycle): int
  {
    match c
    case Recession => 0
    case Normal => 1
    case Boom => 2
    case Overheat => 3
  }

  /** For a non-negative starting capital the classification is monotone in
      the average, each cycle is exactly its band of averages, and its
      multiplier rises with it. */
  lemma ClassifyBands(avg: real, avg': real, initialCapital: int)
    requires initialCapital >= 0 && avg <= avg'
    ensures Rank(Classify(avg, initialCapital)) <= Rank(Classify(avg', initialCapital))
    ensures Multiplier(Classify(avg, initialCapital)) <= Multiplier(Classify(avg', initialCapital))
    ensures Classify(avg, initialCapital) == Normal <==>
              0.8 * initialCapital as real <= avg <= 1.1 * initialCapital as real
  {
  }

  /** A country without companies is in the normal cycle. */
  lemma EmptyCountryIsNormal(initialCapital: int)
    requires initialCapital >= 0
    ensures Classify(Average([], initialCapital), initialCapital) == Normal
  {
  }
}
